=== FILE: README.md ===
# Agent installer of the Drone autoscaler, in Dafny

The autoscaler provisions cloud servers and turns each into a build agent.
The installer (`engine/install.go`) does the second half. `Install` lists the
servers in state `created`, marks each one `staging`, writes it to the store,
and launches one `install` per server. `install` builds a Docker client for
the server. It polls the remote daemon until a container listing succeeds,
pulls the agent image, and creates and starts a container named `agent`.
Then it marks the server `running`. The first step that fails goes through
`errorUpdate`: the server is marked `error` with the error's text and
written back. Before each create, the socket bind
`/var/run/docker.sock:/var/run/docker.sock` is appended to a bind list that
all installs share. The container's mount-target set is derived from that
list by `toVol`, which parses each bind with `splitVolumeParts` (a regular
expression with Windows drive-letter support).

Modules:

- `Wrappers`: `Option` and `Result`.
- `VolumeSpec`: `splitVolumeParts` and `toVol`. The regular expression is
  modelled as leftmost-first matching with greedy, backtracking quantifiers
  (`Match`). It is proved equal to a closed form (`Direct`), and round trips
  and shapes are proved from there. `strings.Split` is `Split`.
- `VolumeExamples`: worked inputs, including the surprising ones.
- `Servers`: the server record, its states, the store as a map from id to
  record, and `errorUpdate`.
- `Probe`: the connectivity loop. Each turn of the `select` is an input
  event: either the timer fired and the listing returned, or the context
  ended.
- `Decimal`: `%v` of an `int`, and reading it back.
- `Container`: the create request built for a server.
- `Installer`: `install` as a pure function of the outcomes of its remote
  calls, `Install`'s staging loop, and the launched installs run one after
  another.

Behaviour that differs from what one might expect of the installer, modelled
as the code does it:

- `a:b:ro` is parsed as `["a:b", "ro"]`, so its mount target is `ro`, not
  `b`. A first path that is a single word character (`[0-9A-Za-z_]`)
  counts as a drive letter when another colon follows it (`a:b` is still
  `["a", "b"]`); other one-character paths such as `/` never do.
  A leading colon shifts the parts the same way: `:ab:rw` gives target `rw`.
- In the mirror case a target that is a single word character swallows the
  mode: `ab:c:rw` is parsed as `["ab", "c:rw"]`, so its mount target is
  `c:rw`. With a leading colon as well, `:c:rw` leaves a single part
  `["c:rw"]` and names no mount target at all.
- When the staging write of the k-th listed server fails, the installs of
  the k servers before it have already been launched and keep running.
- Errors while draining the image-pull stream are ignored.
- A failure at any step overwrites the server's error text. A successful
  install does not clear an earlier error text.
- `errorUpdate` ignores whether its own store write succeeded.

## Model

| member | source | states |
|---|---|---|
| VolumeSpec.MatchIsDirect | engine/install.go:222-228 | Leftmost-first, backtracking matching of the pattern gives the same groups as the closed form: group 1 keeps a drive prefix when a colon can still follow, group 2 always keeps one, paths stop at colons, the mode is the longest run of `rwom` after a colon |
| VolumeSpec.MatchShape | engine/install.go:222 | Every match holds colons only in drive prefixes and only mode letters in group 3, and its groups with separators are a prefix of the input |
| VolumeSpec.DriveKeptInSource | engine/install.go:222 | An input opening with a word character and a colon, with another colon later, keeps that drive prefix in the source |
| VolumeSpec.LeadingColonEmptySource | engine/install.go:222 | An input starting with a colon matches with an empty source group |
| VolumeSpec.Split | engine/install.go:237 | The split parts contain no separator, there is at least one, and joining them with the separator gives back the input |
| VolumeSpec.SplitJoin | engine/install.go:237 | Splitting a join of separator-free parts gives back the parts |
| VolumeSpec.NonEmptyOfThree | engine/install.go:229-234 | Filtering the three groups keeps exactly the non-empty ones, in order |
| VolumeSpec.SplitVolumeParts | engine/install.go:221-239 | Never fails; an input without a colon is returned as its only part; with a colon there are at most three parts, none empty, each with colons only in a drive prefix |
| VolumeSpec.PairRoundTrip | engine/install.go:221-235 | `source:target` with colon-free, non-empty paths parses back to `[source, target]` |
| VolumeSpec.TripleRoundTrip | engine/install.go:221-235 | `source:target:mode`, with non-empty colon-free paths that are not a single word character and a non-empty mode of `rwom` letters, parses back to its three parts |
| VolumeSpec.DrivePairRoundTrip | engine/install.go:221-235 | Two drive paths `a:p:b:q`, with word-character drive letters and colon-free paths, parse back to `[a:p, b:q]` |
| VolumeSpec.LeadingColonShifts | engine/install.go:221-235 | A leading colon leaves the source empty, so `:target:mode` (a colon-free target longer than one character, a mode of `rwom` letters) parses to `[target, mode]` |
| VolumeSpec.OneLetterSourceFuses | engine/install.go:222-235 | With a source that is a single word character (`[0-9A-Za-z_]`), source and target fuse into the first part and the mode becomes the second |
| VolumeSpec.OneLetterTargetFuses | engine/install.go:222-235 | With a source that is neither empty nor a single word character and colon-free, a target that is a single word character and a colon-free rest, `target:rest` becomes the second part and the mount target |
| VolumeSpec.TargetOf | engine/install.go:208-215 | The per-bind step of `toVol`: a bind without a colon names no target, and a target is never empty and holds a colon only as a drive prefix |
| VolumeSpec.ToVol | engine/install.go:205-218 | A target is in the set exactly when some bind in the list has at least two parts and that is its second part |
| VolumeSpec.ToVolAppend | engine/install.go:205-218 | The targets of two concatenated bind lists are the union of their targets |
| VolumeSpec.ToVolSameElements | engine/install.go:205-218 | Order and repetition of binds do not change the target set |
| VolumeSpec.ToVolDuplicated | engine/install.go:205-218 | A list repeated twice names the same targets as the list |
| VolumeExamples.PlainPair | engine/install.go:221-235 | `a:b` parses to `[a, b]` and names target `b` |
| VolumeExamples.SingleLetterSourceIsDrive | engine/install.go:221-235 | `a:b:ro` parses to `[a:b, ro]` and names target `ro` |
| VolumeExamples.SingleLetterTargetIsDrive | engine/install.go:221-235 | `ab:c:rw` parses to `[ab, c:rw]` and names target `c:rw` |
| VolumeExamples.LeadingColonSingleLetterTarget | engine/install.go:221-235 | `:c:rw` parses to the single part `[c:rw]` and names no target |
| VolumeExamples.NonWordLetterIsPath | engine/install.go:221-235 | `/:bc:ro` parses to `[/, bc, ro]`: a one-character path that is not a word character is no drive |
| VolumeExamples.DriveLettersBothSides | engine/install.go:221-235 | `C:\x:C:\y` parses to `[C:\x, C:\y]` |
| VolumeExamples.LeadingColonShiftsParts | engine/install.go:221-235 | `:ab:rw` parses to `[ab, rw]` and names target `rw` |
| VolumeExamples.NoSeparatorDropped | engine/install.go:236-237 | A bind without a colon is its own single part and names no target |
| VolumeExamples.ToVolExample | engine/install.go:205-218 | Duplicates collapse and a bind without a target is skipped without affecting the others |
| Servers.Update | engine/install.go:191 | A successful write stores the record under its id; no other record changes; a failed write changes nothing |
| Servers.ErrorUpdateIgnoresStoreResult | engine/install.go:194-201 | With an error, `errorUpdate` returns that error and the same record whatever the store's write returned; a failed write leaves the store alone |
| Servers.ErrorUpdate | engine/install.go:194-201 | The error is returned unchanged; with an error the record becomes `error` with the error's text and nothing else in it changes, and it is written; without one nothing happens |
| Probe.Probe | engine/install.go:87-114 | The probe as the install runs it: the first listing is not delayed and every later one waits a minute |
| Probe.Poll | engine/install.go:87-114 | The first listing waits the initial interval and every later one a minute; if the loop is still polling, every turn made a listing |
| Probe.ReachableAt | engine/install.go:88-114 | If the first turn that does not retry is a successful listing at turn i, the loop made i+1 listings and reports the host reachable |
| Probe.CancelledAt | engine/install.go:88-114 | If the first turn that does not retry is the context ending at turn i, the loop made i listings and reports the context's error |
| Probe.PollingWhileFailing | engine/install.go:88-114 | With no cap on retries, failing listings keep the loop going, one listing per turn |
| Probe.StopsOnlyOnSuccessOrDone | engine/install.go:88-114 | The loop stops exactly when some turn is a successful listing or a done context |
| Decimal.Format | engine/install.go:143 | `%v` of the capacity: a minus sign exactly for negative values, digits after it |
| Decimal.ParseFormat | engine/install.go:157 | The printed capacity reads back as the same integer, negative values included |
| Container.AgentSpec | engine/install.go:135-165 | The request uses the configured image and the shared bind list, mounts exactly the targets named by those binds, restarts always and is named `agent` |
| Container.SpecIdentifiesServer | engine/install.go:140-158 | The labels name the server's name, region, size and id, and the capacity label and variable read back as its capacity |
| Container.SocketBindTarget | engine/install.go:134 | The socket bind names the socket path as its only target |
| Container.SocketsDeduplicated | engine/install.go:134-149 | However many socket binds have been appended, the target set gains only the socket path |
| Installer.InstallServer | engine/install.go:70-192 | A returning install writes its record through the store's update; a failure marks the record `error` with the failing step's message; success marks it `running` and returns what the store's update returned; while polling nothing has failed and neither the record nor the store has changed |
| Installer.InstallTrace | engine/install.go:70-192 | The calls of an install are exactly those its outcomes spell out: the client, then one listing per probe turn, then the pull, create and start as far as the outcomes let through, then the store write unless still probing |
| Installer.InstallCalls | engine/install.go:76-80 | An install starts by building a client for its server, ends with the write of its final record exactly when it returns, and makes the probe's listings right after the client |
| Installer.TraceInOrder | engine/install.go:70-192 | Any call sequence the outcomes can spell out is step by step, with the store write last |
| Installer.InstallInOrder | engine/install.go:70-192 | Calls happen step by step and the store write comes last |
| Installer.FailsAtFirstFailingStep | engine/install.go:76-184 | An install fails at a step exactly when every earlier step succeeded and that one failed; it returns that step's error and makes no later call except the store write |
| Installer.CompletesWhenNothingFails | engine/install.go:178-191 | An install completes exactly when nothing fails; the record is then `running` with its old error text, and the store holds it if the update succeeded |
| Installer.PollingIff | engine/install.go:76-114 | An install is still waiting exactly when the client was built and no turn of the loop has stopped it |
| Installer.StopsBefore | engine/install.go:76-184 | An install that stopped before the pull (or before any later step) makes no call of that step or any later one; a client failure is covered by `Installer.FailsAtFirstFailingStep` |
| Installer.PullIff | engine/install.go:112-126 | The image is pulled exactly when the client was built and a listing succeeded |
| Installer.CreateIff | engine/install.go:120-172 | The container is created exactly when the pull succeeded as well |
| Installer.StartIff | engine/install.go:167-184 | The container is started exactly when the create succeeded as well |
| Installer.ListingsFollowClient | engine/install.go:87-104 | After the client, the calls are the probe's listings, the first made without delay |
| Installer.BindGrowth | engine/install.go:134-165 | The shared list gains one socket bind exactly when the create is reached, and then a create call with the grown list is among the calls |
| Installer.CreateBinds | engine/install.go:134-149 | The only create call an install makes uses its starting bind list followed by the socket bind |
| Installer.InstallIndependent | engine/install.go:70-192 | What an install does to its own record depends neither on the shared bind list nor on the rest of the store |
| Installer.AsStaging | engine/install.go:50 | The staged record is the listed one with its state set to `staging` |
| Installer.Stage | engine/install.go:49-66 | Staging launches servers in list order until the first failed write; it returns that write's error, and launched every server before it; it writes the failing one and nothing after it |
| Installer.Install | engine/install.go:41-68 | A failed listing is returned before anything is written or launched; otherwise the error is nil exactly when every staging write succeeded |
| Installer.StageFrame | engine/install.go:49-59 | Staging changes no record except the launched servers': the record whose write failed and every record listed after it are left as they were |
| Installer.StageStore | engine/install.go:49-59 | With distinct ids, every launched server is stored as its staging record |
| Installer.RunWorkers | engine/install.go:61-65 | There is one install run per launched server |
| Installer.WorkersIndependent | engine/install.go:61-65 | Each install ends with the same result and record as it would alone, and its first call builds a client for its own server |
| Installer.InstallLookup | engine/install.go:190-198 | One install changes at most its own record, and changes it exactly when it returned and the write succeeded |
| Installer.WorkersFrame | engine/install.go:61-65 | The installs change no record except the launched servers' |
| Installer.WorkersStore | engine/install.go:61-65 | With distinct ids, each launched server ends stored as its own install wrote it, or unchanged if that install wrote nothing |
| Installer.TwoWorkersCommute | engine/install.go:61-65 | Two installs of different servers leave the same store in either order |
| Installer.WorkersVolumes | engine/install.go:134 | The shared list ends with one socket bind per install that reached the create |
| Installer.WorkersBinds | engine/install.go:134-149 | Every create of the batch uses the starting list followed by at least one socket bind |
| Installer.CreatesMountSocketOnce | engine/install.go:134-149 | Every create mounts the starting targets plus the socket path, however many socket binds have piled up |
| Installer.Bootstrap | engine/install.go:41-68 | A failed listing launches no install and leaves the store and bind list alone; one install runs per launched server |
| Installer.StagingFailureAfterLaunches | engine/install.go:49-66 | When the k-th staging write fails, the k earlier installs have been launched and run; the error is returned; the write log stops at the k-th server, and in the final store the k-th record and every later one (unless it shares an id with a launched server) are as they were |
| Installer.UnlaunchedUntouched | engine/install.go:49-66 | After a staging failure, a record whose id no launched server has keeps its value through staging and the installs |
| Installer.BootstrapFinalStore | engine/install.go:41-68 | With distinct ids and all staging writes succeeding, each server ends as its own install left it, or still staging; no other record changes |
| Installer.FinalStates | engine/install.go:183-198 | A server ends `running` exactly when its install completed and wrote, `error` exactly when a step failed and the write succeeded, and `staging` otherwise |

## Left out

- The goroutines and the wait group: the launched installs are run one
  after another in launch order, after the staging loop. For distinct ids,
  `Installer.TwoWorkersCommute` and `Installer.WorkersStore` show that the
  final store does not depend on this order. Concurrent appends to the
  shared bind list are a data race in the code; the model has no such race.
- The Docker client and daemon, the store, the context and the clock are not
  modelled as systems. What each call returns is an input (`Outcomes`, the
  probe events, the staging outcomes and the listing).
- Servers.Update: a failed store write is assumed to leave the store
  unchanged. The store's own code is not part of this model.
- Probe.Poll: the events are a finite sequence. A loop that never stops is
  represented by the verdict `Polling` once the events run out.
- The compile error branch of `splitVolumeParts` (lines 223-226): the
  pattern is a constant that compiles, so it is not modelled.
- The regular-expression engine: the pattern is modelled directly, not by a
  general matcher. `\w` is ASCII letters, digits and `_`.
- Logging, the keepalive settings and the client factory's internals.
- Container.AgentSpec: the runner's volume, device and privileged-image
  settings are kept as the text they print as. The Go formatting of those
  lists is not modelled.
- Installer.InstallServer: the create request is recorded by its bind list
  only. The full request is `Container.AgentSpec(cfg, server, binds)`.
- Draining and closing the pull stream are not modelled, because their
  errors are ignored.
- Installer.StageStore and Installer.WorkersStore: stated only for servers
  with distinct ids. A store listing returns one record per id.

=== FILE: container.dfy ===
/** The agent container `install` asks the remote runtime to create: its
    configuration template and host configuration. */
module Container {
  import opened Wrappers
  import opened Servers
  import Decimal
  import VolumeSpec

  /** The installer's fixed settings. The runner's volume, device and
      privileged-image lists are kept as the text they are printed as. */
  datatype Config = Config(
    image: string,
    secret: string,
    host: string,
    proto: string,
    runnerVolumes: string,
    runnerDevices: string,
    runnerPrivileged: string)

  /** The bind that exposes the host's runtime socket to the agent. */
  const SocketBind: string := "/var/run/docker.sock:/var/run/docker.sock"

  /** Where that bind mounts the socket. */
  const SocketPath: string := "/var/run/docker.sock"

  /** What the create call is given: the container configuration, the host
      configuration and the container name. */
  datatype Spec = Spec(
    image: string,
    attachStdout: bool,
    attachStderr: bool,
    env: seq<string>,
    volumes: set<string>,
    labels: map<string, string>,
    binds: seq<string>,
    restartPolicy: string,
    name: string)

  const CapacityVar: string := "DRONE_RUNNER_CAPACITY="

  /** The agent's environment: where and how to reach the RPC server, and
      the runner settings for this server. */
  function AgentEnv(cfg: Config, server: Server): seq<string> {
    [ "DRONE_RPC_SERVER=" + cfg.proto + "://" + cfg.host,
      "DRONE_RPC_SECRET=" + cfg.secret,
      CapacityVar + Decimal.Format(server.capacity),
      "DRONE_RUNNER_NAME=" + server.name,
      "DRONE_RUNNER_VOLUMES=" + cfg.runnerVolumes,
      "DRONE_RUNNER_DEVICES=" + cfg.runnerDevices,
      "DRONE_RUNNER_PRIVILEGED_IMAGES=" + cfg.runnerPrivileged ]
  }

  /** Labels for the update watcher and for inventory tools. */
  function AgentLabels(server: Server): map<string, string> {
    map[
      "com.centurylinklabs.watchtower.enable" := "true",
      "com.centurylinklabs.watchtower.stop-signal" := "SIGHUP",
      "io.drone.agent.name" := server.name,
      "io.drone.agent.zone" := server.region,
      "io.drone.agent.size" := server.size,
      "io.drone.agent.instance" := server.id,
      "io.drone.agent.capacity" := Decimal.Format(server.capacity)]
  }

  /** The create request for `server` with the bind list `binds`: the
      mount-target set is computed from the same binds, the container is
      always restarted and is named "agent". */
  function AgentSpec(cfg: Config, server: Server, binds: seq<string>): (s: Spec)
    ensures s.image == cfg.image && s.binds == binds
    ensures forall t :: t in s.volumes <==>
                        exists i :: 0 <= i < |binds| && VolumeSpec.TargetOf(binds[i]) == Some(t)
    ensures s.restartPolicy == "always" && s.name == "agent"
  {
    Spec(cfg.image, true, true, AgentEnv(cfg, server), VolumeSpec.ToVol(binds),
         AgentLabels(server), binds, "always", "agent")
  }

  /** The labels identify the server the agent runs on, and its capacity
      reads back as the server's capacity, both from the label and from the
      environment. */
  lemma SpecIdentifiesServer(cfg: Config, server: Server, binds: seq<string>)
    ensures var s := AgentSpec(cfg, server, binds);
            && s.labels["io.drone.agent.name"] == server.name
            && s.labels["io.drone.agent.zone"] == server.region
            && s.labels["io.drone.agent.size"] == server.size
            && s.labels["io.drone.agent.instance"] == server.id
            && Decimal.Parse(s.labels["io.drone.agent.capacity"]) == Some(server.capacity)
            && s.env[2][..|CapacityVar|] == CapacityVar
            && Decimal.Parse(s.env[2][|CapacityVar|..]) == Some(server.capacity)
  {
    Decimal.ParseFormat(server.capacity);
    var e := AgentEnv(cfg, server)[2];
    assert e[|CapacityVar|..] == Decimal.Format(server.capacity);
  }

  /** The socket bind mounts the socket onto the same path, so on its own
      it names exactly that target. */
  lemma SocketBindTarget()
    ensures VolumeSpec.TargetOf(SocketBind) == Some(SocketPath)
    ensures VolumeSpec.ToVol([SocketBind]) == {SocketPath}
  {
    assert SocketPath + [':'] + SocketPath == SocketBind;
    VolumeSpec.PairRoundTrip(SocketPath, SocketPath);
    VolumeSpec.ToVolSingle(SocketBind);
  }

  /** `n` copies of the socket bind. */
  function Sockets(n: nat): (binds: seq<string>)
    ensures |binds| == n && forall k :: 0 <= k < n ==> binds[k] == SocketBind
  {
    seq(n, _ => SocketBind)
  }

  /** However many socket binds have piled up on the bind list, the
      mount-target set gains the socket path once. */
  lemma SocketsDeduplicated(volumes: seq<string>, n: nat)
    requires n >= 1
    ensures VolumeSpec.ToVol(volumes + Sockets(n)) == VolumeSpec.ToVol(volumes) + {SocketPath}
  {
    var piled := volumes + Sockets(n);
    var once := volumes + [SocketBind];
    forall p | p in piled ensures p in once {
      var k :| 0 <= k < |piled| && piled[k] == p;
      if k >= |volumes| {
        assert piled[k] == SocketBind;
        assert once[|volumes|] == SocketBind;
      } else {
        assert once[k] == p;
      }
    }
    forall p | p in once ensures p in piled {
      var k :| 0 <= k < |once| && once[k] == p;
      if k >= |volumes| {
        assert piled[|volumes|] == SocketBind;
      } else {
        assert piled[k] == p;
      }
    }
    VolumeSpec.ToVolSameElements(piled, once);
    VolumeSpec.ToVolAppend(volumes, [SocketBind]);
    SocketBindTarget();
  }

  lemma SocketsAdd(m: nat, n: nat)
    ensures Sockets(m) + Sockets(n) == Sockets(m + n)
  {
  }
}

=== FILE: decimal.dfy ===
/** Decimal rendering of a Go `int`, as `fmt` prints it with `%v`, and the
    reading that recovers the number. */
module Decimal {
  import opened Wrappers

  predicate IsDigit(c: char) {
    '0' <= c <= '9'
  }

  function DigitChar(d: nat): (c: char)
    requires d < 10
    ensures IsDigit(c)
  {
    (48 + d) as char
  }

  function DigitValue(c: char): (d: nat)
    requires IsDigit(c)
    ensures d < 10
  {
    (c as int) - 48
  }

  /** The digits of `n`, most significant first, without leading zeros. */
  function Digits(n: nat): (s: string)
    ensures |s| >= 1
    ensures forall k :: 0 <= k < |s| ==> IsDigit(s[k])
    ensures s[0] == '0' ==> n == 0 && s == "0"
    decreases n
  {
    if n < 10 then [DigitChar(n)] else Digits(n / 10) + [DigitChar(n % 10)]
  }

  /** `%v` of an int: a minus sign for negatives, then the digits. */
  function Format(n: int): (s: string)
    ensures |s| >= 1
    ensures n < 0 <==> s[0] == '-'
    ensures forall k :: 0 < k < |s| ==> IsDigit(s[k])
  {
    if n < 0 then "-" + Digits(-n) else Digits(n)
  }

  /** The number a string of digits denotes. */
  function ValueOf(s: string): nat
    requires forall k :: 0 <= k < |s| ==> IsDigit(s[k])
    decreases |s|
  {
    if s == [] then 0 else 10 * ValueOf(s[..|s| - 1]) + DigitValue(s[|s| - 1])
  }

  /** Reads an optionally signed decimal back. */
  function Parse(s: string): Option<int> {
    if |s| > 0 && s[0] == '-' then
      if |s| > 1 && forall k :: 1 <= k < |s| ==> IsDigit(s[k]) then Some(-(ValueOf(s[1..]) as int)) else None
    else if |s| > 0 && forall k :: 0 <= k < |s| ==> IsDigit(s[k]) then Some(ValueOf(s))
    else None
  }

  lemma {:induction false} DigitsValue(n: nat)
    ensures ValueOf(Digits(n)) == n
    decreases n
  {
    if n >= 10 {
      DigitsValue(n / 10);
      var s := Digits(n);
      assert s[..|s| - 1] == Digits(n / 10);
    }
  }

  /** Reading back what was printed gives the number. */
  lemma ParseFormat(n: int)
    ensures Parse(Format(n)) == Some(n)
  {
    if n < 0 {
      DigitsValue(-n);
      assert Format(n)[1..] == Digits(-n);
    } else {
      DigitsValue(n);
    }
  }
}

=== FILE: installer.dfy ===
/** The per-server install (`install`) and the batch that stages servers
    and launches one install per server (`Install`). Everything the remote
    runtime and the store do is an input; the concurrent installs are run
    one after another in launch order. */
module Installer {
  import opened Wrappers
  import opened Servers
  import opened Probe
  import opened Container
  import VolumeSpec

  // ---------------------------------------------------------------------
  // One server

  /** What the outside world does during one server's install. */
  datatype Outcomes = Outcomes(
    client: Option<Err>,          // building a runtime client for the server
    probe: seq<Event>,            // the turns of the connectivity loop
    pull: Option<Err>,            // the image pull
    create: Result<string, Err>,  // the container create: the new id
    start: Option<Err>,           // the container start
    update: Option<Err>)          // the store update the install ends with

  /** The effects an install has, in the order it has them. A create call
      records the bind list it was made with; the request it sends is
      `AgentSpec(cfg, server, binds)`. */
  datatype Call =
    | NewClient(server: Server)
    | ListContainers(wait: nat)
    | PullImage(image: string)
    | CreateContainer(binds: seq<string>)
    | StartContainer(id: string)
    | WriteServer(record: Server)

  /** The steps that can fail. */
  datatype Step = ClientStep | ProbeStep | PullStep | CreateStep | StartStep

  /** An install either returned, or is still waiting for the runtime. */
  datatype Ending = Returned(err: Option<Err>) | StillPolling

  /** The record, store and shared bind list after one install, the step
      it failed at (if any) and its effects. */
  datatype Run = Run(
    ending: Ending,
    failed: Option<Step>,
    server: Server,
    store: Store,
    volumes: seq<string>,
    calls: seq<Call>)

  /** Position of a call in the install sequence. */
  function Rank(c: Call): nat {
    match c
    case NewClient(_) => 0
    case ListContainers(_) => 1
    case PullImage(_) => 2
    case CreateContainer(_) => 3
    case StartContainer(_) => 4
    case WriteServer(_) => 5
  }

  function StepRank(step: Step): nat {
    match step
    case ClientStep => 0
    case ProbeStep => 1
    case PullStep => 2
    case CreateStep => 3
    case StartStep => 4
  }

  /** Calls are issued step by step, and a store write is the last thing
      an install does. */
  predicate InOrder(calls: seq<Call>) {
    forall i, j :: 0 <= i < j < |calls| ==> Rank(calls[i]) <= Rank(calls[j]) && !calls[i].WriteServer?
  }

  /** Hand a failed step's error to `errorUpdate` and stop. */
  function Fail(store: Store, server: Server, volumes: seq<string>, calls: seq<Call>,
                step: Step, e: Err, o: Outcomes): Run
  {
    var w := ErrorUpdate(store, server, Some(e), o.update);
    Run(Returned(w.ret), Some(step), w.server, w.store, volumes, calls + [WriteServer(w.server)])
  }

  /** One listing per wait of the probe. */
  function Listings(waits: seq<nat>): (calls: seq<Call>)
    ensures |calls| == |waits|
    ensures forall k :: 0 <= k < |waits| ==> calls[k] == ListContainers(waits[k])
  {
    seq(|waits|, k requires 0 <= k < |waits| => ListContainers(waits[k]))
  }

  /** `install`: client, probe, pull, create, start, then mark the server
      running; the first step that fails goes through `errorUpdate` and
      ends the install. */
  function InstallServer(cfg: Config, volumes: seq<string>, store: Store, server: Server, o: Outcomes): (r: Run)
    ensures r.ending.Returned? ==> r.store == Update(store, r.server, o.update)
    ensures r.ending.StillPolling? ==> r.failed.None? && r.server == server && r.store == store
    ensures r.failed.Some? ==> && r.ending.Returned? && r.ending.err.Some?
                               && r.server == server.(state := Error, error := r.ending.err.value.message)
    ensures r.failed.None? && r.ending.Returned? ==>
              r.server == server.(state := Running) && r.ending.err == o.update
  {
    var c0 := [NewClient(server)];
    if o.client.Some? then Fail(store, server, volumes, c0, ClientStep, o.client.value, o)
    else Connect(cfg, volumes, store, server, o, c0)
  }

  /** The connectivity loop, then the pull. */
  function Connect(cfg: Config, volumes: seq<string>, store: Store, server: Server, o: Outcomes,
                   calls: seq<Call>): Run
  {
    var p := Probe.Probe(o.probe);
    var c1 := calls + Listings(p.waits);
    match p.verdict
    case Polling => Run(StillPolling, None, server, store, volumes, c1)
    case Cancelled(cause) => Fail(store, server, volumes, c1, ProbeStep, cause, o)
    case Reachable => Pull(cfg, volumes, store, server, o, c1)
  }

  /** The image pull, then the create. The stream the pull returns is
      drained and closed; errors while draining it are not looked at. */
  function Pull(cfg: Config, volumes: seq<string>, store: Store, server: Server, o: Outcomes,
                calls: seq<Call>): Run
  {
    var c2 := calls + [PullImage(cfg.image)];
    if o.pull.Some? then Fail(store, server, volumes, c2, PullStep, o.pull.value, o)
    else Create(cfg, volumes + [SocketBind], store, server, o, c2)
  }

  /** The create call with the bind list that already holds this install's
      socket bind, then the start. */
  function Create(cfg: Config, binds: seq<string>, store: Store, server: Server, o: Outcomes,
                  calls: seq<Call>): Run
  {
    var c3 := calls + [CreateContainer(binds)];
    match o.create
    case Failure(e) => Fail(store, server, binds, c3, CreateStep, e, o)
    case Success(id) => Start(binds, store, server, o, c3, id)
  }

  /** The start call, then the record is marked running and written; what
      the write returns is what the install returns. */
  function Start(binds: seq<string>, store: Store, server: Server, o: Outcomes, calls: seq<Call>,
                 id: string): Run
  {
    var c4 := calls + [StartContainer(id)];
    if o.start.Some? then Fail(store, server, binds, c4, StartStep, o.start.value, o)
    else
      var running := server.(state := Running);
      Run(Returned(o.update), None, running, Update(store, running, o.update), binds,
          c4 + [WriteServer(running)])
  }

  // ---------------------------------------------------------------------
  // The calls of one install, written out

  /** The calls an install makes after the probe's listings, closed by the
      store write `last`: nothing while still probing, the write alone after
      a cancelled probe, otherwise the pull and as many of create and start
      as the outcomes let through. */
  function Tail(cfg: Config, volumes: seq<string>, o: Outcomes, last: Call): seq<Call> {
    match Probe.Probe(o.probe).verdict
    case Polling => []
    case Cancelled(_) => [last]
    case Reachable =>
      if o.pull.Some? then [PullImage(cfg.image), last]
      else
        var create := CreateContainer(volumes + [SocketBind]);
        match o.create
        case Failure(_) => [PullImage(cfg.image), create, last]
        case Success(id) => [PullImage(cfg.image), create, StartContainer(id), last]
  }

  /** Every call of one install, the store write `last` included. */
  function Trace(cfg: Config, volumes: seq<string>, server: Server, o: Outcomes, last: Call): seq<Call> {
    [NewClient(server)] +
    if o.client.Some? then [last] else Listings(Probe.Probe(o.probe).waits) + Tail(cfg, volumes, o, last)
  }

  lemma StartTrace(binds: seq<string>, store: Store, server: Server, o: Outcomes, calls: seq<Call>, id: string)
    ensures var r := Start(binds, store, server, o, calls, id);
            r.calls == calls + [StartContainer(id), WriteServer(r.server)]
  {
  }

  lemma CreateTrace(cfg: Config, binds: seq<string>, store: Store, server: Server, o: Outcomes,
                    calls: seq<Call>)
    ensures var r := Create(cfg, binds, store, server, o, calls);
            r.calls == calls + [CreateContainer(binds)] +
                       if o.create.Failure? then [WriteServer(r.server)]
                       else [StartContainer(o.create.value), WriteServer(r.server)]
  {
    if o.create.Success? {
      StartTrace(binds, store, server, o, calls + [CreateContainer(binds)], o.create.value);
    }
  }

  lemma PullTrace(cfg: Config, volumes: seq<string>, store: Store, server: Server, o: Outcomes,
                  calls: seq<Call>)
    requires Probe.Probe(o.probe).verdict.Reachable?
    ensures var r := Pull(cfg, volumes, store, server, o, calls);
            r.calls == calls + Tail(cfg, volumes, o, WriteServer(r.server))
  {
    if o.pull.None? {
      CreateTrace(cfg, volumes + [SocketBind], store, server, o, calls + [PullImage(cfg.image)]);
    }
  }

  lemma ConnectTrace(cfg: Config, volumes: seq<string>, store: Store, server: Server, o: Outcomes,
                     calls: seq<Call>)
    ensures var r := Connect(cfg, volumes, store, server, o, calls);
            r.calls == calls + Listings(Probe.Probe(o.probe).waits) + Tail(cfg, volumes, o, WriteServer(r.server))
  {
    var c1 := calls + Listings(Probe.Probe(o.probe).waits);
    if Probe.Probe(o.probe).verdict.Reachable? {
      PullTrace(cfg, volumes, store, server, o, c1);
    }
  }

  /** The calls of an install are those its outcomes spell out. */
  lemma InstallTrace(cfg: Config, volumes: seq<string>, store: Store, server: Server, o: Outcomes)
    ensures var r := InstallServer(cfg, volumes, store, server, o);
            r.calls == Trace(cfg, volumes, server, o, WriteServer(r.server))
  {
    if o.client.None? {
      ConnectTrace(cfg, volumes, store, server, o, [NewClient(server)]);
    }
  }

  /** A trace starts with the client call, holds the listings right after
      it, and ends with the store write unless it is still probing. */
  lemma TraceEnds(cfg: Config, volumes: seq<string>, server: Server, o: Outcomes, last: Call)
    requires last.WriteServer?
    ensures var t := Trace(cfg, volumes, server, o, last);
            && |t| > 0 && t[0] == NewClient(server)
            && (t[|t| - 1].WriteServer? <==> !(o.client.None? && Probe.Probe(o.probe).verdict.Polling?))
            && (t[|t| - 1].WriteServer? ==> t[|t| - 1] == last)
            && (o.client.None? ==> [NewClient(server)] + Listings(Probe.Probe(o.probe).waits) <= t)
  {
    var t := Trace(cfg, volumes, server, o, last);
    if o.client.None? {
      var h := [NewClient(server)] + Listings(Probe.Probe(o.probe).waits);
      var tail := Tail(cfg, volumes, o, last);
      assert t == h + tail;
      assert h[|h| - 1] == t[|h| - 1];
      if tail != [] {
        assert t[|t| - 1] == tail[|tail| - 1];
      }
    }
  }

  /** An install starts by building a client and, exactly when it
      returns, ends by writing its record. */
  lemma InstallCalls(cfg: Config, volumes: seq<string>, store: Store, server: Server, o: Outcomes)
    ensures var r := InstallServer(cfg, volumes, store, server, o);
            && |r.calls| > 0 && r.calls[0] == NewClient(server)
            && (r.ending.Returned? <==> r.calls[|r.calls| - 1].WriteServer?)
            && (r.ending.Returned? ==> r.calls[|r.calls| - 1] == WriteServer(r.server))
            && (o.client.None? ==>
                  var prefix := [NewClient(server)] + Listings(Probe.Probe(o.probe).waits);
                  |r.calls| >= |prefix| && r.calls[..|prefix|] == prefix)
  {
    var r := InstallServer(cfg, volumes, store, server, o);
    InstallTrace(cfg, volumes, store, server, o);
    TraceEnds(cfg, volumes, server, o, WriteServer(r.server));
    PollingIff(cfg, volumes, store, server, o);
  }

  // ---------------------------------------------------------------------
  // What one install does, stated from the outcomes

  /** The step runs: every step before it succeeded. */
  predicate Reached(step: Step, o: Outcomes) {
    match step
    case ClientStep => true
    case ProbeStep => o.client.None?
    case PullStep => o.client.None? && Probe.Probe(o.probe).verdict.Reachable?
    case CreateStep => o.client.None? && Probe.Probe(o.probe).verdict.Reachable? && o.pull.None?
    case StartStep => o.client.None? && Probe.Probe(o.probe).verdict.Reachable? && o.pull.None?
                      && o.create.Success?
  }

  /** The step, once run, fails. */
  predicate Fails(step: Step, o: Outcomes) {
    match step
    case ClientStep => o.client.Some?
    case ProbeStep => Probe.Probe(o.probe).verdict.Cancelled?
    case PullStep => o.pull.Some?
    case CreateStep => o.create.Failure?
    case StartStep => o.start.Some?
  }

  /** The error a failing step reports. */
  function ErrorOf(step: Step, o: Outcomes): Err
    requires Fails(step, o)
  {
    match step
    case ClientStep => o.client.value
    case ProbeStep => Probe.Probe(o.probe).verdict.cause
    case PullStep => o.pull.value
    case CreateStep => o.create.error
    case StartStep => o.start.value
  }

  lemma InOrderSnoc(calls: seq<Call>, c: Call)
    requires InOrder(calls)
    requires forall i :: 0 <= i < |calls| ==> Rank(calls[i]) <= Rank(c) && !calls[i].WriteServer?
    ensures InOrder(calls + [c])
  {
  }

  /** Two ordered runs of calls, the first without a store write and
      ranked no higher than where the second starts, make one ordered run. */
  lemma InOrderJoin(a: seq<Call>, b: seq<Call>, k: nat)
    requires InOrder(a) && InOrder(b)
    requires forall i :: 0 <= i < |a| ==> Rank(a[i]) <= k && !a[i].WriteServer?
    requires forall j :: 0 <= j < |b| ==> k <= Rank(b[j])
    ensures InOrder(a + b)
  {
    var c := a + b;
    forall i, j | 0 <= i < j < |c| ensures Rank(c[i]) <= Rank(c[j]) && !c[i].WriteServer? {
      if j < |a| {
        assert c[i] == a[i] && c[j] == a[j];
      } else if i < |a| {
        assert c[i] == a[i] && c[j] == b[j - |a|];
      } else {
        assert c[i] == b[i - |a|] && c[j] == b[j - |a|];
      }
    }
  }

  /** The client call and the listings: in order, none past the probe. */
  lemma HeadInOrder(server: Server, waits: seq<nat>)
    ensures var h := [NewClient(server)] + Listings(waits);
            && InOrder(h)
            && forall i :: 0 <= i < |h| ==> Rank(h[i]) <= 1 && !h[i].WriteServer?
  {
  }

  /** The calls after the listings: in order, none before the pull but the
      store write. */
  lemma TailInOrder(cfg: Config, volumes: seq<string>, o: Outcomes, last: Call)
    requires last.WriteServer?
    ensures var t := Tail(cfg, volumes, o, last);
            InOrder(t) && forall j :: 0 <= j < |t| ==> 1 <= Rank(t[j])
  {
  }

  /** A trace closed by a store write is in order. */
  lemma TraceInOrder(cfg: Config, volumes: seq<string>, server: Server, o: Outcomes, last: Call)
    requires last.WriteServer?
    ensures InOrder(Trace(cfg, volumes, server, o, last))
  {
    if o.client.Some? {
      InOrderSnoc([NewClient(server)], last);
    } else {
      var waits := Probe.Probe(o.probe).waits;
      var tail := Tail(cfg, volumes, o, last);
      HeadInOrder(server, waits);
      TailInOrder(cfg, volumes, o, last);
      InOrderJoin([NewClient(server)] + Listings(waits), tail, 1);
      assert Trace(cfg, volumes, server, o, last) == [NewClient(server)] + Listings(waits) + tail;
    }
  }

  /** Calls are issued step by step, and the store write, if any, comes
      last. */
  lemma InstallInOrder(cfg: Config, volumes: seq<string>, store: Store, server: Server, o: Outcomes)
    ensures InOrder(InstallServer(cfg, volumes, store, server, o).calls)
  {
    var r := InstallServer(cfg, volumes, store, server, o);
    InstallTrace(cfg, volumes, store, server, o);
    TraceInOrder(cfg, volumes, server, o, WriteServer(r.server));
  }

  /** An install fails at a step exactly when that step runs and fails; it
      then returns that step's error, records it through `errorUpdate`, and
      nothing after that step runs except the store write. */
  lemma FailsAtFirstFailingStep(cfg: Config, volumes: seq<string>, store: Store, server: Server,
                                o: Outcomes, step: Step)
    ensures var r := InstallServer(cfg, volumes, store, server, o);
            r.failed == Some(step) <==> Reached(step, o) && Fails(step, o)
    ensures var r := InstallServer(cfg, volumes, store, server, o);
            r.failed == Some(step) ==>
              && r.ending == Returned(Some(ErrorOf(step, o)))
              && r.server.state == Error
              && r.server.error == ErrorOf(step, o).message
              && forall i :: 0 <= i < |r.calls| - 1 ==> Rank(r.calls[i]) <= StepRank(step)
  {
  }

  /** An install gets through every step exactly when nothing fails; it
      then marks the record running, leaves its error text alone and
      returns exactly what the store's update returned. */
  lemma CompletesWhenNothingFails(cfg: Config, volumes: seq<string>, store: Store, server: Server, o: Outcomes)
    ensures var r := InstallServer(cfg, volumes, store, server, o);
            (r.ending.Returned? && r.failed.None?) <==> Reached(StartStep, o) && o.start.None?
    ensures var r := InstallServer(cfg, volumes, store, server, o);
            r.ending.Returned? && r.failed.None? ==>
              && r.server.state == Running && r.server.error == server.error
              && r.ending.err == o.update
              && (o.update.None? ==> r.store[server.id] == r.server)
  {
  }

  /** An install stays in the connectivity loop exactly when the client was
      built and no turn of the loop has stopped it yet. */
  lemma PollingIff(cfg: Config, volumes: seq<string>, store: Store, server: Server, o: Outcomes)
    ensures InstallServer(cfg, volumes, store, server, o).ending.StillPolling? <==>
            o.client.None? && Probe.Probe(o.probe).verdict.Polling?
  {
  }

  /** An install that stops before the step of rank `rank` (a failure at
      an earlier step, or still probing) makes no call of that step or a
      later one. */
  lemma StopsBefore(cfg: Config, volumes: seq<string>, store: Store, server: Server, o: Outcomes, rank: nat)
    requires rank >= 2
    requires var r := InstallServer(cfg, volumes, store, server, o);
             r.ending.StillPolling? || (r.failed.Some? && StepRank(r.failed.value) < rank)
    ensures var r := InstallServer(cfg, volumes, store, server, o);
            forall i :: 0 <= i < |r.calls| && !r.calls[i].WriteServer? ==> Rank(r.calls[i]) < rank
  {
    var r := InstallServer(cfg, volumes, store, server, o);
    if r.ending.StillPolling? {
      assert r.calls == [NewClient(server)] + Listings(Probe.Probe(o.probe).waits);
    } else {
      FailsAtFirstFailingStep(cfg, volumes, store, server, o, r.failed.value);
    }
  }

  /** Which steps the calls after the listings get to. */
  lemma TailSteps(cfg: Config, volumes: seq<string>, o: Outcomes, last: Call)
    requires last.WriteServer?
    ensures var t := Tail(cfg, volumes, o, last);
            var reachable := Probe.Probe(o.probe).verdict.Reachable?;
            && (PullImage(cfg.image) in t <==> reachable)
            && ((exists j :: 0 <= j < |t| && t[j].CreateContainer?) <==> reachable && o.pull.None?)
            && ((exists j :: 0 <= j < |t| && t[j].StartContainer?) <==>
                  reachable && o.pull.None? && o.create.Success?)
  {
    var t := Tail(cfg, volumes, o, last);
    if Probe.Probe(o.probe).verdict.Reachable? && o.pull.None? {
      assert t[1].CreateContainer?;
      if o.create.Success? {
        assert t[2].StartContainer?;
      }
    }
  }

  /** Splits a trace whose client was built into its head and its tail. */
  lemma TraceSplit(cfg: Config, volumes: seq<string>, server: Server, o: Outcomes, last: Call)
    requires o.client.None?
    ensures var h := [NewClient(server)] + Listings(Probe.Probe(o.probe).waits);
            && Trace(cfg, volumes, server, o, last) == h + Tail(cfg, volumes, o, last)
            && forall i :: 0 <= i < |h| ==> h[i].NewClient? || h[i].ListContainers?
  {
  }

  lemma TracePulls(cfg: Config, volumes: seq<string>, server: Server, o: Outcomes, last: Call)
    requires last.WriteServer?
    ensures PullImage(cfg.image) in Trace(cfg, volumes, server, o, last) <==> Reached(PullStep, o)
  {
    if o.client.None? {
      TraceSplit(cfg, volumes, server, o, last);
      TailSteps(cfg, volumes, o, last);
      var h := [NewClient(server)] + Listings(Probe.Probe(o.probe).waits);
      assert PullImage(cfg.image) !in h;
    }
  }

  lemma TraceCreates(cfg: Config, volumes: seq<string>, server: Server, o: Outcomes, last: Call)
    requires last.WriteServer?
    ensures var t := Trace(cfg, volumes, server, o, last);
            (exists i :: 0 <= i < |t| && t[i].CreateContainer?) <==> Reached(CreateStep, o)
  {
    if o.client.None? {
      TraceSplit(cfg, volumes, server, o, last);
      TailSteps(cfg, volumes, o, last);
      var h := [NewClient(server)] + Listings(Probe.Probe(o.probe).waits);
      var tail := Tail(cfg, volumes, o, last);
      var t := h + tail;
      if exists i :: 0 <= i < |t| && t[i].CreateContainer? {
        var i :| 0 <= i < |t| && t[i].CreateContainer?;
        assert tail[i - |h|] == t[i];
      }
      if exists j :: 0 <= j < |tail| && tail[j].CreateContainer? {
        var j :| 0 <= j < |tail| && tail[j].CreateContainer?;
        assert t[|h| + j] == tail[j];
      }
    }
  }

  lemma TraceStarts(cfg: Config, volumes: seq<string>, server: Server, o: Outcomes, last: Call)
    requires last.WriteServer?
    ensures var t := Trace(cfg, volumes, server, o, last);
            (exists i :: 0 <= i < |t| && t[i].StartContainer?) <==> Reached(StartStep, o)
  {
    if o.client.None? {
      TraceSplit(cfg, volumes, server, o, last);
      TailSteps(cfg, volumes, o, last);
      var h := [NewClient(server)] + Listings(Probe.Probe(o.probe).waits);
      var tail := Tail(cfg, volumes, o, last);
      var t := h + tail;
      if exists i :: 0 <= i < |t| && t[i].StartContainer? {
        var i :| 0 <= i < |t| && t[i].StartContainer?;
        assert tail[i - |h|] == t[i];
      }
      if exists j :: 0 <= j < |tail| && tail[j].StartContainer? {
        var j :| 0 <= j < |tail| && tail[j].StartContainer?;
        assert t[|h| + j] == tail[j];
      }
    }
  }

  /** The image is pulled exactly when the client was built and the probe
      reached the runtime. */
  lemma PullIff(cfg: Config, volumes: seq<string>, store: Store, server: Server, o: Outcomes)
    ensures var r := InstallServer(cfg, volumes, store, server, o);
            PullImage(cfg.image) in r.calls <==> Reached(PullStep, o)
  {
    var r := InstallServer(cfg, volumes, store, server, o);
    InstallTrace(cfg, volumes, store, server, o);
    TracePulls(cfg, volumes, server, o, WriteServer(r.server));
  }

  /** The container is created exactly when the pull succeeded as well. */
  lemma CreateIff(cfg: Config, volumes: seq<string>, store: Store, server: Server, o: Outcomes)
    ensures var r := InstallServer(cfg, volumes, store, server, o);
            (exists i :: 0 <= i < |r.calls| && r.calls[i].CreateContainer?) <==> Reached(CreateStep, o)
  {
    var r := InstallServer(cfg, volumes, store, server, o);
    InstallTrace(cfg, volumes, store, server, o);
    TraceCreates(cfg, volumes, server, o, WriteServer(r.server));
  }

  /** The container is started exactly when the create succeeded as well. */
  lemma StartIff(cfg: Config, volumes: seq<string>, store: Store, server: Server, o: Outcomes)
    ensures var r := InstallServer(cfg, volumes, store, server, o);
            (exists i :: 0 <= i < |r.calls| && r.calls[i].StartContainer?) <==> Reached(StartStep, o)
  {
    var r := InstallServer(cfg, volumes, store, server, o);
    InstallTrace(cfg, volumes, store, server, o);
    TraceStarts(cfg, volumes, server, o, WriteServer(r.server));
  }

  /** Once the client is built, the next calls are the probe's listings,
      the first one made without delay. */
  lemma ListingsFollowClient(cfg: Config, volumes: seq<string>, store: Store, server: Server, o: Outcomes)
    requires o.client.None?
    ensures var r := InstallServer(cfg, volumes, store, server, o);
            var waits := Probe.Probe(o.probe).waits;
            && |r.calls| > |waits|
            && (forall k :: 0 <= k < |waits| ==> r.calls[k + 1] == ListContainers(waits[k]))
            && (|waits| > 0 ==> r.calls[1] == ListContainers(0))
  {
    InstallCalls(cfg, volumes, store, server, o);
    var r := InstallServer(cfg, volumes, store, server, o);
    var prefix := [NewClient(server)] + Listings(Probe.Probe(o.probe).waits);
    assert forall k :: 0 <= k < |prefix| ==> r.calls[k] == prefix[k];
  }

  /** The bind list gains the socket bind exactly when the install gets as
      far as the create call, and that call mounts every target of the
      grown list. */
  lemma BindGrowth(cfg: Config, volumes: seq<string>, store: Store, server: Server, o: Outcomes)
    ensures var r := InstallServer(cfg, volumes, store, server, o);
            r.volumes == if Reached(CreateStep, o) then volumes + [SocketBind] else volumes
    ensures var r := InstallServer(cfg, volumes, store, server, o);
            Reached(CreateStep, o) ==> CreateContainer(volumes + [SocketBind]) in r.calls
  {
  }

  /** The one create call a trace can hold carries the starting bind list
      with the socket bind appended. */
  lemma TraceBinds(cfg: Config, volumes: seq<string>, server: Server, o: Outcomes, last: Call)
    requires last.WriteServer?
    ensures forall c :: c in Trace(cfg, volumes, server, o, last) && c.CreateContainer? ==>
              c.binds == volumes + [SocketBind]
  {
    var t := Trace(cfg, volumes, server, o, last);
    if o.client.None? {
      var c1 := [NewClient(server)] + Listings(Probe.Probe(o.probe).waits);
      var tail := Tail(cfg, volumes, o, last);
      assert t == c1 + tail;
      forall c | c in t && c.CreateContainer? ensures c.binds == volumes + [SocketBind] {
        assert c !in c1;
      }
    }
  }

  /** The only create call an install makes uses its starting bind list
      followed by the socket bind. */
  lemma CreateBinds(cfg: Config, volumes: seq<string>, store: Store, server: Server, o: Outcomes)
    ensures var r := InstallServer(cfg, volumes, store, server, o);
            forall c :: c in r.calls && c.CreateContainer? ==> c.binds == volumes + [SocketBind]
  {
    var r := InstallServer(cfg, volumes, store, server, o);
    InstallTrace(cfg, volumes, store, server, o);
    TraceBinds(cfg, volumes, server, o, WriteServer(r.server));
  }

  /** Whether two runs agree on how they ended and on the record. */
  predicate SameOutcome(r1: Run, r2: Run) {
    r1.ending == r2.ending && r1.failed == r2.failed && r1.server == r2.server
  }

  lemma StartIndependent(b1: seq<string>, b2: seq<string>, s1: Store, s2: Store, server: Server,
                         o: Outcomes, c1: seq<Call>, c2: seq<Call>, id: string)
    ensures SameOutcome(Start(b1, s1, server, o, c1, id), Start(b2, s2, server, o, c2, id))
  {
  }

  lemma CreateIndependent(cfg: Config, b1: seq<string>, b2: seq<string>, s1: Store, s2: Store,
                          server: Server, o: Outcomes, c1: seq<Call>, c2: seq<Call>)
    ensures SameOutcome(Create(cfg, b1, s1, server, o, c1), Create(cfg, b2, s2, server, o, c2))
  {
    match o.create
    case Failure(_) =>
    case Success(id) =>
      StartIndependent(b1, b2, s1, s2, server, o, c1 + [CreateContainer(b1)], c2 + [CreateContainer(b2)], id);
  }

  lemma PullIndependent(cfg: Config, v1: seq<string>, v2: seq<string>, s1: Store, s2: Store,
                        server: Server, o: Outcomes, c1: seq<Call>, c2: seq<Call>)
    ensures SameOutcome(Pull(cfg, v1, s1, server, o, c1), Pull(cfg, v2, s2, server, o, c2))
  {
    if o.pull.None? {
      CreateIndependent(cfg, v1 + [SocketBind], v2 + [SocketBind], s1, s2, server, o,
                        c1 + [PullImage(cfg.image)], c2 + [PullImage(cfg.image)]);
    }
  }

  /** What an install does to its own record does not depend on the bind
      list it starts from or on the rest of the store. */
  lemma InstallIndependent(cfg: Config, v1: seq<string>, v2: seq<string>, s1: Store, s2: Store,
                           server: Server, o: Outcomes)
    ensures var r1 := InstallServer(cfg, v1, s1, server, o);
            var r2 := InstallServer(cfg, v2, s2, server, o);
            r1.ending == r2.ending && r1.failed == r2.failed && r1.server == r2.server
  {
    var c0 := [NewClient(server)];
    if o.client.None? {
      var p := Probe.Probe(o.probe);
      var c1 := c0 + Listings(p.waits);
      if p.verdict.Reachable? {
        PullIndependent(cfg, v1, v2, s1, s2, server, o, c1, c1);
      }
    }
  }

  // ---------------------------------------------------------------------
  // The batch

  /** A listed server as the staging loop writes it, and as its install
      receives it: the same record, now staging. */
  function AsStaging(server: Server): (staged: Server)
    ensures staged.state == Staging
    ensures staged.(state := server.state) == server
  {
    server.(state := Staging)
  }

  /** What `Install` leaves behind: the error it returns, the store, the
      records it wrote in order, and the servers whose installs it
      launched, in launch order. */
  datatype Staged = Staged(err: Option<Err>, store: Store, writes: seq<Server>, launched: seq<Server>)

  /** The loop of `Install`: each listed server is marked staging and
      written; a failed write ends the loop with that write's error,
      otherwise the server's install is launched and the loop goes on.
      `outcomes[k]` is what the store's update of the k-th server returns. */
  function Stage(store: Store, servers: seq<Server>, outcomes: seq<Option<Err>>): (r: Staged)
    requires |outcomes| == |servers|
    ensures |r.launched| <= |servers|
    ensures forall k :: 0 <= k < |r.launched| ==> r.launched[k] == AsStaging(servers[k]) && outcomes[k].None?
    ensures r.err.None? ==> |r.launched| == |servers|
    ensures r.err.Some? ==> |r.launched| < |servers| && r.err == outcomes[|r.launched|]
    ensures |r.writes| == if r.err.Some? then |r.launched| + 1 else |r.launched|
    ensures forall k :: 0 <= k < |r.writes| ==> r.writes[k] == AsStaging(servers[k])
    decreases |servers|
  {
    if servers == [] then Staged(None, store, [], [])
    else
      var staged := AsStaging(servers[0]);
      if outcomes[0].Some? then Staged(outcomes[0], store, [staged], [])
      else
        var rest := Stage(Update(store, staged, None), servers[1..], outcomes[1..]);
        Staged(rest.err, rest.store, [staged] + rest.writes, [staged] + rest.launched)
  }

  /** `Install`: list the created servers, then stage them. A failed
      listing is returned as it is, before anything is written or
      launched. */
  function Install(store: Store, listing: Result<seq<Server>, Err>, outcomes: seq<Option<Err>>): (r: Staged)
    requires listing.Success? ==> |outcomes| == |listing.value|
    ensures listing.Failure? ==> r.err == Some(listing.error) && r.store == store
                                 && r.writes == [] && r.launched == []
    ensures listing.Success? ==> (r.err.None? <==> forall k :: 0 <= k < |outcomes| ==> outcomes[k].None?)
  {
    match listing
    case Failure(e) => Staged(Some(e), store, [], [])
    case Success(servers) => Stage(store, servers, outcomes)
  }

  /** The launched installs, run one after another in launch order,
      sharing the store and the bind list. */
  datatype Workers = Workers(store: Store, volumes: seq<string>, runs: seq<Run>)

  function RunWorkers(cfg: Config, volumes: seq<string>, store: Store, launched: seq<Server>,
                      os: seq<Outcomes>): (w: Workers)
    requires |os| == |launched|
    ensures |w.runs| == |launched|
    decreases |launched|
  {
    if launched == [] then Workers(store, volumes, [])
    else
      var r := InstallServer(cfg, volumes, store, launched[0], os[0]);
      var rest := RunWorkers(cfg, r.volumes, r.store, launched[1..], os[1..]);
      Workers(rest.store, rest.volumes, [r] + rest.runs)
  }

  /** The whole batch: `Install`, then the installs it launched. */
  datatype Batch = Batch(staged: Staged, workers: Workers)

  function Bootstrap(cfg: Config, volumes: seq<string>, store: Store, listing: Result<seq<Server>, Err>,
                     outcomes: seq<Option<Err>>, os: seq<Outcomes>): (b: Batch)
    requires listing.Success? ==> |outcomes| == |listing.value| && |os| == |listing.value|
    ensures |b.workers.runs| == |b.staged.launched|
    ensures listing.Failure? ==> b.workers.runs == [] && b.workers.store == store && b.workers.volumes == volumes
  {
    var st := Install(store, listing, outcomes);
    Batch(st, RunWorkers(cfg, volumes, st.store, st.launched, os[..|st.launched|]))
  }

  // ---------------------------------------------------------------------
  // What the batch does, stated from the outcomes

  /** The stored record with the given id, if any. */
  function Lookup(store: Store, id: string): (found: Option<Server>)
    ensures found.Some? <==> id in store
    ensures found.Some? ==> found.value == store[id]
  {
    if id in store then Some(store[id]) else None
  }

  predicate DistinctIds(servers: seq<Server>) {
    forall i, j :: 0 <= i < j < |servers| ==> servers[i].id != servers[j].id
  }

  /** Staging writes only the launched servers' records: every other
      record, including the one whose write failed and all after it, is
      untouched. */
  lemma {:induction false} StageFrame(store: Store, servers: seq<Server>, outcomes: seq<Option<Err>>, id: string)
    requires |outcomes| == |servers|
    requires var launched := Stage(store, servers, outcomes).launched;
             forall k :: 0 <= k < |launched| ==> launched[k].id != id
    ensures Lookup(Stage(store, servers, outcomes).store, id) == Lookup(store, id)
    decreases |servers|
  {
    if servers != [] && outcomes[0].None? {
      var staged := AsStaging(servers[0]);
      var next := Update(store, staged, None);
      var rest := Stage(next, servers[1..], outcomes[1..]);
      assert Stage(store, servers, outcomes).launched == [staged] + rest.launched;
      assert staged.id != id;
      forall k | 0 <= k < |rest.launched| ensures rest.launched[k].id != id {
        assert rest.launched[k] == ([staged] + rest.launched)[k + 1];
      }
      StageFrame(next, servers[1..], outcomes[1..], id);
    }
  }

  /** With distinct ids, every launched server is stored as its staging
      record. */
  lemma {:induction false} StageStore(store: Store, servers: seq<Server>, outcomes: seq<Option<Err>>)
    requires |outcomes| == |servers|
    requires DistinctIds(servers)
    ensures var r := Stage(store, servers, outcomes);
            forall k :: 0 <= k < |r.launched| ==> Lookup(r.store, r.launched[k].id) == Some(r.launched[k])
    decreases |servers|
  {
    if servers != [] && outcomes[0].None? {
      var staged := AsStaging(servers[0]);
      var next := Update(store, staged, None);
      var r := Stage(store, servers, outcomes);
      var rest := Stage(next, servers[1..], outcomes[1..]);
      assert r.launched == [staged] + rest.launched;
      assert r.store == rest.store;
      StageStore(next, servers[1..], outcomes[1..]);
      forall k | 0 <= k < |servers[1..]| ensures servers[1..][k].id != staged.id {
        assert servers[1..][k] == servers[k + 1];
      }
      StageFrame(next, servers[1..], outcomes[1..], staged.id);
      forall k | 0 <= k < |r.launched| ensures Lookup(r.store, r.launched[k].id) == Some(r.launched[k]) {
        if k > 0 {
          assert r.launched[k] == rest.launched[k - 1];
        }
      }
    }
  }

  /** `run` ends as the install of `server` would on its own, from an
      empty bind list and an empty store, and its first call builds a
      client for `server`. */
  predicate AsAlone(run: Run, cfg: Config, server: Server, o: Outcomes) {
    var solo := InstallServer(cfg, [], map[], server, o);
    && run.ending == solo.ending && run.failed == solo.failed && run.server == solo.server
    && |run.calls| > 0 && run.calls[0] == NewClient(server)
  }

  /** Each launched install ends as it would have on its own, whatever the
      installs launched before it did to the store and the bind list. */
  lemma {:induction false} WorkersIndependent(cfg: Config, volumes: seq<string>, store: Store,
                                              launched: seq<Server>, os: seq<Outcomes>)
    requires |os| == |launched|
    ensures var w := RunWorkers(cfg, volumes, store, launched, os);
            forall k :: 0 <= k < |launched| ==> AsAlone(w.runs[k], cfg, launched[k], os[k])
    decreases |launched|
  {
    if launched != [] {
      var r := InstallServer(cfg, volumes, store, launched[0], os[0]);
      var w := RunWorkers(cfg, volumes, store, launched, os);
      var rest := RunWorkers(cfg, r.volumes, r.store, launched[1..], os[1..]);
      assert w.runs == [r] + rest.runs;
      assert AsAlone(r, cfg, launched[0], os[0]) by {
        InstallIndependent(cfg, volumes, [], store, map[], launched[0], os[0]);
        InstallCalls(cfg, volumes, store, launched[0], os[0]);
      }
      WorkersIndependent(cfg, r.volumes, r.store, launched[1..], os[1..]);
      forall k | 1 <= k < |launched| ensures AsAlone(w.runs[k], cfg, launched[k], os[k]) {
        assert w.runs[k] == rest.runs[k - 1];
        assert launched[k] == launched[1..][k - 1];
        assert os[k] == os[1..][k - 1];
      }
    }
  }

  /** The install wrote its record: it returned, and the store's update
      succeeded. */
  predicate Wrote(r: Run, o: Outcomes) {
    r.ending.Returned? && o.update.None?
  }

  /** One install touches at most its own record, and touches it exactly
      when it wrote it. */
  lemma InstallLookup(cfg: Config, volumes: seq<string>, store: Store, server: Server, o: Outcomes, id: string)
    ensures var r := InstallServer(cfg, volumes, store, server, o);
            Lookup(r.store, id) == if id == server.id && Wrote(r, o) then Some(r.server) else Lookup(store, id)
  {
    var r := InstallServer(cfg, volumes, store, server, o);
    assert r.server.id == server.id;
  }

  /** The installs touch no record but the launched servers'. */
  lemma {:induction false} WorkersFrame(cfg: Config, volumes: seq<string>, store: Store,
                                        launched: seq<Server>, os: seq<Outcomes>, id: string)
    requires |os| == |launched|
    requires forall k :: 0 <= k < |launched| ==> launched[k].id != id
    ensures Lookup(RunWorkers(cfg, volumes, store, launched, os).store, id) == Lookup(store, id)
    decreases |launched|
  {
    if launched != [] {
      var r := InstallServer(cfg, volumes, store, launched[0], os[0]);
      InstallLookup(cfg, volumes, store, launched[0], os[0], id);
      forall k | 0 <= k < |launched[1..]| ensures launched[1..][k].id != id {
        assert launched[1..][k] == launched[k + 1];
      }
      WorkersFrame(cfg, r.volumes, r.store, launched[1..], os[1..], id);
    }
  }

  /** With distinct ids, each launched server ends up stored as its install
      wrote it, or as it was before if its install wrote nothing. */
  lemma {:induction false} WorkersStore(cfg: Config, volumes: seq<string>, store: Store,
                                        launched: seq<Server>, os: seq<Outcomes>)
    requires |os| == |launched|
    requires DistinctIds(launched)
    ensures var w := RunWorkers(cfg, volumes, store, launched, os);
            forall k :: 0 <= k < |launched| ==>
              Lookup(w.store, launched[k].id) ==
                if Wrote(w.runs[k], os[k]) then Some(w.runs[k].server) else Lookup(store, launched[k].id)
    decreases |launched|
  {
    if launched != [] {
      var r := InstallServer(cfg, volumes, store, launched[0], os[0]);
      var w := RunWorkers(cfg, volumes, store, launched, os);
      var rest := RunWorkers(cfg, r.volumes, r.store, launched[1..], os[1..]);
      assert w.runs == [r] + rest.runs;
      assert w.store == rest.store;
      WorkersStore(cfg, r.volumes, r.store, launched[1..], os[1..]);
      forall k | 0 <= k < |launched[1..]| ensures launched[1..][k].id != launched[0].id {
        assert launched[1..][k] == launched[k + 1];
      }
      WorkersFrame(cfg, r.volumes, r.store, launched[1..], os[1..], launched[0].id);
      InstallLookup(cfg, volumes, store, launched[0], os[0], launched[0].id);
      forall k | 1 <= k < |launched|
        ensures Lookup(w.store, launched[k].id) ==
                if Wrote(w.runs[k], os[k]) then Some(w.runs[k].server) else Lookup(store, launched[k].id)
      {
        assert w.runs[k] == rest.runs[k - 1];
        assert launched[k] == launched[1..][k - 1];
        assert os[k] == os[1..][k - 1];
        InstallLookup(cfg, volumes, store, launched[0], os[0], launched[k].id);
      }
    }
  }

  lemma LookupExtensional(s1: Store, s2: Store)
    requires forall id :: Lookup(s1, id) == Lookup(s2, id)
    ensures s1 == s2
  {
    assert forall id :: id in s1 <==> Lookup(s1, id).Some?;
  }

  /** Two installs in a row: the second starts from what the first left. */
  lemma WorkersPair(cfg: Config, volumes: seq<string>, store: Store, a: Server, b: Server,
                    oa: Outcomes, ob: Outcomes)
    ensures var ra := InstallServer(cfg, volumes, store, a, oa);
            RunWorkers(cfg, volumes, store, [a, b], [oa, ob]).store ==
            InstallServer(cfg, ra.volumes, ra.store, b, ob).store
  {
    var ra := InstallServer(cfg, volumes, store, a, oa);
    var rab := InstallServer(cfg, ra.volumes, ra.store, b, ob);
    assert [a, b][1..] == [b] && [oa, ob][1..] == [ob];
    assert [b][1..] == [] && [ob][1..] == [];
    assert RunWorkers(cfg, ra.volumes, ra.store, [b], [ob]).store == rab.store;
  }

  /** Two installs of different servers leave the same store whichever
      runs first. */
  lemma TwoWorkersCommute(cfg: Config, volumes: seq<string>, store: Store, a: Server, b: Server,
                          oa: Outcomes, ob: Outcomes)
    requires a.id != b.id
    ensures RunWorkers(cfg, volumes, store, [a, b], [oa, ob]).store ==
            RunWorkers(cfg, volumes, store, [b, a], [ob, oa]).store
  {
    var ra := InstallServer(cfg, volumes, store, a, oa);
    var rb := InstallServer(cfg, volumes, store, b, ob);
    var rab := InstallServer(cfg, ra.volumes, ra.store, b, ob);
    var rba := InstallServer(cfg, rb.volumes, rb.store, a, oa);
    WorkersPair(cfg, volumes, store, a, b, oa, ob);
    WorkersPair(cfg, volumes, store, b, a, ob, oa);
    InstallIndependent(cfg, volumes, ra.volumes, store, ra.store, b, ob);
    InstallIndependent(cfg, volumes, rb.volumes, store, rb.store, a, oa);
    forall id ensures Lookup(rab.store, id) == Lookup(rba.store, id) {
      InstallLookup(cfg, volumes, store, a, oa, id);
      InstallLookup(cfg, volumes, store, b, ob, id);
      InstallLookup(cfg, ra.volumes, ra.store, b, ob, id);
      InstallLookup(cfg, rb.volumes, rb.store, a, oa, id);
    }
    LookupExtensional(rab.store, rba.store);
  }

  /** How many of the installs get as far as the create call. */
  function CreatesReached(os: seq<Outcomes>): (n: nat)
    ensures n <= |os|
  {
    if os == [] then 0
    else (if Reached(CreateStep, os[0]) then 1 else 0) + CreatesReached(os[1..])
  }

  /** The shared bind list ends with one socket bind per install that got
      as far as the create call. */
  lemma {:induction false} WorkersVolumes(cfg: Config, volumes: seq<string>, store: Store,
                                          launched: seq<Server>, os: seq<Outcomes>)
    requires |os| == |launched|
    ensures RunWorkers(cfg, volumes, store, launched, os).volumes == volumes + Sockets(CreatesReached(os))
    decreases |launched|
  {
    if launched != [] {
      var r := InstallServer(cfg, volumes, store, launched[0], os[0]);
      BindGrowth(cfg, volumes, store, launched[0], os[0]);
      WorkersVolumes(cfg, r.volumes, r.store, launched[1..], os[1..]);
      var m := if Reached(CreateStep, os[0]) then 1 else 0;
      assert r.volumes == volumes + Sockets(m);
      SocketsAdd(m, CreatesReached(os[1..]));
    }
  }

  /** Every create call of the runs is made with `volumes` followed by at
      least one socket bind. */
  predicate CreatesExtend(runs: seq<Run>, volumes: seq<string>) {
    forall k, c :: 0 <= k < |runs| && c in runs[k].calls && c.CreateContainer? ==>
      |c.binds| > |volumes| && c.binds == volumes + Sockets(|c.binds| - |volumes|)
  }

  /** Extending a list by socket binds extends it by one socket bind more. */
  lemma CreatesExtendShift(runs: seq<Run>, volumes: seq<string>, m: nat)
    requires CreatesExtend(runs, volumes + Sockets(m))
    ensures CreatesExtend(runs, volumes)
  {
    forall k, c | 0 <= k < |runs| && c in runs[k].calls && c.CreateContainer?
      ensures |c.binds| > |volumes| && c.binds == volumes + Sockets(|c.binds| - |volumes|)
    {
      SocketsAdd(m, |c.binds| - |volumes + Sockets(m)|);
    }
  }

  lemma CreatesExtendCons(r: Run, runs: seq<Run>, volumes: seq<string>)
    requires forall c :: c in r.calls && c.CreateContainer? ==> c.binds == volumes + [SocketBind]
    requires CreatesExtend(runs, volumes)
    ensures CreatesExtend([r] + runs, volumes)
  {
    var all := [r] + runs;
    forall k, c | 0 <= k < |all| && c in all[k].calls && c.CreateContainer?
      ensures |c.binds| > |volumes| && c.binds == volumes + Sockets(|c.binds| - |volumes|)
    {
      if k == 0 {
        assert Sockets(1) == [SocketBind];
      } else {
        assert all[k] == runs[k - 1];
      }
    }
  }

  /** Every create call is made with the starting list followed by at
      least one socket bind. */
  lemma {:induction false} WorkersBinds(cfg: Config, volumes: seq<string>, store: Store,
                                        launched: seq<Server>, os: seq<Outcomes>)
    requires |os| == |launched|
    ensures CreatesExtend(RunWorkers(cfg, volumes, store, launched, os).runs, volumes)
    decreases |launched|
  {
    if launched != [] {
      var r := InstallServer(cfg, volumes, store, launched[0], os[0]);
      var rest := RunWorkers(cfg, r.volumes, r.store, launched[1..], os[1..]);
      assert RunWorkers(cfg, volumes, store, launched, os).runs == [r] + rest.runs;
      BindGrowth(cfg, volumes, store, launched[0], os[0]);
      CreateBinds(cfg, volumes, store, launched[0], os[0]);
      WorkersBinds(cfg, r.volumes, r.store, launched[1..], os[1..]);
      CreatesExtendShift(rest.runs, volumes, if Reached(CreateStep, os[0]) then 1 else 0);
      CreatesExtendCons(r, rest.runs, volumes);
    }
  }

  /** However many installs have added their socket bind, each create
      call mounts the starting targets plus the socket path. */
  lemma CreatesMountSocketOnce(cfg: Config, volumes: seq<string>, store: Store,
                               launched: seq<Server>, os: seq<Outcomes>)
    requires |os| == |launched|
    ensures var w := RunWorkers(cfg, volumes, store, launched, os);
            forall k, c :: 0 <= k < |w.runs| && c in w.runs[k].calls && c.CreateContainer? ==>
              VolumeSpec.ToVol(c.binds) == VolumeSpec.ToVol(volumes) + {SocketPath}
  {
    var w := RunWorkers(cfg, volumes, store, launched, os);
    WorkersBinds(cfg, volumes, store, launched, os);
    forall k, c | 0 <= k < |w.runs| && c in w.runs[k].calls && c.CreateContainer?
      ensures VolumeSpec.ToVol(c.binds) == VolumeSpec.ToVol(volumes) + {SocketPath}
    {
      SocketsDeduplicated(volumes, |c.binds| - |volumes|);
    }
  }

  /** When the staging write of the k-th listed server fails, `Install`
      returns that error after launching the installs of the k servers
      before it, and neither writes nor launches any server after it. */
  lemma StagingFailureAfterLaunches(cfg: Config, volumes: seq<string>, store: Store, servers: seq<Server>,
                                    outcomes: seq<Option<Err>>, os: seq<Outcomes>, k: nat)
    requires |outcomes| == |servers| && |os| == |servers|
    requires k < |servers| && outcomes[k].Some?
    requires forall j :: 0 <= j < k ==> outcomes[j].None?
    ensures var b := Bootstrap(cfg, volumes, store, Success(servers), outcomes, os);
            && b.staged.err == outcomes[k]
            && |b.staged.writes| == k + 1 && b.staged.writes[k] == AsStaging(servers[k])
            && |b.workers.runs| == k
            && forall j :: 0 <= j < k ==>
                 b.staged.launched[j] == AsStaging(servers[j])
                 && |b.workers.runs[j].calls| > 0
                 && b.workers.runs[j].calls[0] == NewClient(AsStaging(servers[j]))
    ensures var b := Bootstrap(cfg, volumes, store, Success(servers), outcomes, os);
            forall j :: k <= j < |servers| && (forall i :: 0 <= i < k ==> servers[i].id != servers[j].id) ==>
              Lookup(b.workers.store, servers[j].id) == Lookup(store, servers[j].id)
  {
    var b := Bootstrap(cfg, volumes, store, Success(servers), outcomes, os);
    var st := Stage(store, servers, outcomes);
    assert b.staged == st;
    assert st.err.Some? && |st.launched| == k;
    WorkersIndependent(cfg, volumes, st.store, st.launched, os[..k]);
    forall j | k <= j < |servers| && (forall i :: 0 <= i < k ==> servers[i].id != servers[j].id)
      ensures Lookup(b.workers.store, servers[j].id) == Lookup(store, servers[j].id)
    {
      UnlaunchedUntouched(cfg, volumes, store, servers, outcomes, os, k, servers[j].id);
    }
  }

  /** A record whose id no launched server has keeps its value through
      staging and the installs. */
  lemma UnlaunchedUntouched(cfg: Config, volumes: seq<string>, store: Store, servers: seq<Server>,
                            outcomes: seq<Option<Err>>, os: seq<Outcomes>, k: nat, id: string)
    requires |outcomes| == |servers| && |os| == |servers|
    requires k < |servers| && outcomes[k].Some?
    requires forall j :: 0 <= j < k ==> outcomes[j].None?
    requires forall i :: 0 <= i < k ==> servers[i].id != id
    ensures Lookup(Bootstrap(cfg, volumes, store, Success(servers), outcomes, os).workers.store, id)
            == Lookup(store, id)
  {
    var st := Stage(store, servers, outcomes);
    assert st.err.Some? && |st.launched| == k;
    assert forall i :: 0 <= i < k ==> st.launched[i].id == servers[i].id;
    StageFrame(store, servers, outcomes, id);
    WorkersFrame(cfg, volumes, st.store, st.launched, os[..k], id);
  }

  /** With distinct ids and every staging write succeeding, each listed
      server ends as its own install left it on its own: written as
      running or failed, or still staging when that install is still
      probing or its last write failed. No other record changes. */
  lemma BootstrapFinalStore(cfg: Config, volumes: seq<string>, store: Store, servers: seq<Server>,
                            outcomes: seq<Option<Err>>, os: seq<Outcomes>)
    requires |outcomes| == |servers| && |os| == |servers|
    requires DistinctIds(servers)
    requires forall k :: 0 <= k < |outcomes| ==> outcomes[k].None?
    ensures var b := Bootstrap(cfg, volumes, store, Success(servers), outcomes, os);
            forall k :: 0 <= k < |servers| ==>
              var solo := InstallServer(cfg, [], map[], AsStaging(servers[k]), os[k]);
              Lookup(b.workers.store, servers[k].id) ==
                Some(if Wrote(solo, os[k]) then solo.server else AsStaging(servers[k]))
    ensures var b := Bootstrap(cfg, volumes, store, Success(servers), outcomes, os);
            forall id :: (forall k :: 0 <= k < |servers| ==> servers[k].id != id) ==>
              Lookup(b.workers.store, id) == Lookup(store, id)
  {
    var b := Bootstrap(cfg, volumes, store, Success(servers), outcomes, os);
    var st := b.staged;
    assert |st.launched| == |servers|;
    assert os[..|st.launched|] == os;
    assert DistinctIds(st.launched);
    StageStore(store, servers, outcomes);
    WorkersStore(cfg, volumes, st.store, st.launched, os);
    WorkersIndependent(cfg, volumes, st.store, st.launched, os);
    forall id | forall k :: 0 <= k < |servers| ==> servers[k].id != id
      ensures Lookup(b.workers.store, id) == Lookup(store, id)
    {
      StageFrame(store, servers, outcomes, id);
      WorkersFrame(cfg, volumes, st.store, st.launched, os, id);
    }
  }

  /** Each server's final state is one of the three an install leaves:
      running, failed, or still staging. */
  lemma FinalStates(cfg: Config, server: Server, o: Outcomes)
    ensures var solo := InstallServer(cfg, [], map[], AsStaging(server), o);
            var final := if Wrote(solo, o) then solo.server else AsStaging(server);
            && (final.state == Running <==> Wrote(solo, o) && solo.failed.None?)
            && (final.state == Error <==> Wrote(solo, o) && solo.failed.Some?)
            && (final.state == Staging <==> !Wrote(solo, o))
  {
  }
}

=== FILE: probe.dfy ===
/** The connectivity loop of the per-server install: wait, list the remote
    containers, and repeat until a listing succeeds or the context ends.
    Time and the context are inputs: each event says which arm of the
    `select` fired. */
module Probe {
  import opened Wrappers
  import opened Servers

  /** `time.Minute`, in nanoseconds. */
  const Minute: nat := 60_000_000_000

  /** One turn of the loop: either the timer fired and the container
      listing returned `list` (nil for success), or the context was done
      first and reported `cause`. */
  datatype Event = Tick(list: Option<Err>) | Done(cause: Err)

  datatype Verdict =
    | Reachable          // a listing succeeded
    | Cancelled(cause: Err)  // the context ended first
    | Polling            // the events ran out with the loop still retrying

  /** What the loop concluded and how long it waited before each listing. */
  datatype Probed = Probed(verdict: Verdict, waits: seq<nat>)

  /** A turn after which the loop goes round again. */
  predicate Retry(e: Event) {
    e.Tick? && e.list.Some?
  }

  /** The loop from a turn whose timer is set to `interval`; every timer
      after the first is set to a minute, whatever the listing returned. */
  function Poll(events: seq<Event>, interval: nat): (p: Probed)
    ensures |p.waits| <= |events|
    ensures |p.waits| > 0 ==> p.waits[0] == interval
    ensures forall k :: 0 < k < |p.waits| ==> p.waits[k] == Minute
    ensures p.verdict.Polling? ==> |p.waits| == |events|
    decreases |events|
  {
    if events == [] then Probed(Polling, [])
    else match events[0]
      case Done(cause) => Probed(Cancelled(cause), [])
      case Tick(list) =>
        if list.None? then Probed(Reachable, [interval])
        else
          var rest := Poll(events[1..], Minute);
          Probed(rest.verdict, [interval] + rest.waits)
  }

  /** The probe as `install` runs it: the first listing is not delayed. */
  function Probe(events: seq<Event>): (p: Probed)
    ensures |p.waits| > 0 ==> p.waits[0] == 0
    ensures forall k :: 0 < k < |p.waits| ==> p.waits[k] == Minute
  {
    Poll(events, 0)
  }

  /** `n` one-minute waits. */
  function Minutes(n: nat): (ws: seq<nat>)
    ensures |ws| == n && forall k :: 0 <= k < n ==> ws[k] == Minute
  {
    seq(n, _ => Minute)
  }

  /** If the first turn that does not retry is a successful listing at
      `i`, the loop made `i + 1` listings and reports the host reachable. */
  lemma {:induction false} ReachableAt(events: seq<Event>, i: nat, interval: nat)
    requires i < |events| && events[i] == Tick(None)
    requires forall j :: 0 <= j < i ==> Retry(events[j])
    ensures Poll(events, interval) == Probed(Reachable, [interval] + Minutes(i))
    decreases i
  {
    if i > 0 {
      ReachableAt(events[1..], i - 1, Minute);
      assert [Minute] + Minutes(i - 1) == Minutes(i);
    }
  }

  /** If the first turn that does not retry is the context ending at `i`,
      the loop made `i` listings and reports the context's error. */
  lemma {:induction false} CancelledAt(events: seq<Event>, i: nat, interval: nat)
    requires i < |events| && events[i].Done?
    requires forall j :: 0 <= j < i ==> Retry(events[j])
    ensures Poll(events, interval).verdict == Cancelled(events[i].cause)
    ensures Poll(events, interval).waits == if i == 0 then [] else [interval] + Minutes(i - 1)
    decreases i
  {
    if i > 1 {
      CancelledAt(events[1..], i - 1, Minute);
      assert [Minute] + Minutes(i - 2) == Minutes(i - 1);
    } else if i == 1 {
      CancelledAt(events[1..], 0, Minute);
    }
  }

  /** There is no retry cap: as long as every listing fails the loop goes
      on, one listing per turn. */
  lemma {:induction false} PollingWhileFailing(events: seq<Event>, interval: nat)
    requires forall j :: 0 <= j < |events| ==> Retry(events[j])
    ensures Poll(events, interval).verdict == Polling
    ensures |Poll(events, interval).waits| == |events|
    decreases |events|
  {
    if events != [] {
      PollingWhileFailing(events[1..], Minute);
    }
  }

  /** The loop stops only on a successful listing or a done context: its
      verdict is `Reachable` or `Cancelled` exactly when some turn does not
      retry. */
  lemma {:induction false} StopsOnlyOnSuccessOrDone(events: seq<Event>, interval: nat)
    ensures !Poll(events, interval).verdict.Polling? <==> exists i :: 0 <= i < |events| && !Retry(events[i])
    decreases |events|
  {
    if events != [] {
      StopsOnlyOnSuccessOrDone(events[1..], Minute);
      if Retry(events[0]) {
        assert forall i :: 1 <= i < |events| ==> events[i] == events[1..][i - 1];
        if exists i :: 0 <= i < |events[1..]| && !Retry(events[1..][i]) {
          var i :| 0 <= i < |events[1..]| && !Retry(events[1..][i]);
          assert !Retry(events[i + 1]);
        }
      }
    }
  }
}

=== FILE: servers.dfy ===
/** Server records, their lifecycle states, and the server store as the
    installer sees it: a map from id to record whose `Update` either writes
    the record or fails. */
module Servers {
  import opened Wrappers

  /** Lifecycle states. The installer moves servers from `Created` through
      `Staging` to `Running` or `Error`; the states other components use
      (creating, stopping, ...) are folded into `Other`. */
  datatype State = Created | Staging | Running | Error | Other(name: string)

  /** A non-nil Go error; `message` is what its `Error()` method returns. */
  datatype Err = Err(message: string)

  /** The fields of a server record the installer reads or writes. */
  datatype Server = Server(
    id: string,
    name: string,
    address: string,
    region: string,
    size: string,
    capacity: int,
    state: State,
    error: string)

  /** The stored records, by id. */
  type Store = map<string, Server>

  /** The store's `Update`: `outcome` is the error the store reports. On
      success the record replaces the stored one with the same id; a failed
      update is taken to leave the store as it was. */
  function Update(store: Store, server: Server, outcome: Option<Err>): (r: Store)
    ensures outcome.None? ==> server.id in r && r[server.id] == server
    ensures outcome.Some? ==> r == store
    ensures forall id :: id != server.id ==> (id in r <==> id in store)
    ensures forall id :: id != server.id && id in store ==> r[id] == store[id]
  {
    if outcome.None? then store[server.id := server] else store
  }

  /** A record after a step, the store after it, and the error returned. */
  datatype Written = Written(server: Server, store: Store, ret: Option<Err>)

  /** `errorUpdate`: with an error, mark the record failed with the error's
      text and write it, ignoring whether the write succeeded; either way
      hand the error back unchanged. */
  function ErrorUpdate(store: Store, server: Server, err: Option<Err>, outcome: Option<Err>): (r: Written)
    ensures r.ret == err
    ensures err.None? ==> r.server == server && r.store == store
    ensures err.Some? ==> r.server.state == Error && r.server.error == err.value.message
    ensures err.Some? ==> r.server.(state := server.state, error := server.error) == server
    ensures err.Some? ==> r.store == Update(store, r.server, outcome)
  {
    if err.Some? then
      var failed := server.(state := Error, error := err.value.message);
      Written(failed, Update(store, failed, outcome), err)
    else Written(server, store, None)
  }

  /** The result of `errorUpdate` does not depend on what the store did
      with the write: only the stored map does. */
  lemma ErrorUpdateIgnoresStoreResult(store: Store, server: Server, err: Err, o1: Option<Err>, o2: Option<Err>)
    ensures ErrorUpdate(store, server, Some(err), o1).ret == Some(err)
    ensures ErrorUpdate(store, server, Some(err), o1).server == ErrorUpdate(store, server, Some(err), o2).server
    ensures o1.Some? ==> ErrorUpdate(store, server, Some(err), o1).store == store
  {
  }
}

=== FILE: volume_examples.dfy ===
/** Worked inputs for the bind-specification parser. */
module VolumeExamples {
  import opened Wrappers
  import opened VolumeSpec

  /** A plain `source:target` splits at its only colon. */
  lemma PlainPair()
    ensures SplitVolumeParts("a:b") == Success(["a", "b"])
    ensures TargetOf("a:b") == Some("b")
  {
    assert "a" + [':'] + "b" == "a:b";
    PairRoundTrip("a", "b");
  }

  /** A single character before the first colon counts as a drive prefix,
      so that colon is not the separator and the mode becomes the target. */
  lemma SingleLetterSourceIsDrive()
    ensures SplitVolumeParts("a:b:ro") == Success(["a:b", "ro"])
    ensures TargetOf("a:b:ro") == Some("ro")
  {
    assert "a" + [':'] + "b" + [':'] + "ro" == "a:b:ro";
    assert "a" + [':'] + "b" == "a:b";
    OneLetterSourceFuses("a", "b", "ro");
  }

  /** The mirror case: a single word character as the target counts as a
      drive prefix, so the second colon is not a separator and the mode is
      glued onto the target. */
  lemma SingleLetterTargetIsDrive()
    ensures SplitVolumeParts("ab:c:rw") == Success(["ab", "c:rw"])
    ensures TargetOf("ab:c:rw") == Some("c:rw")
  {
    assert "ab" + [':'] + "c" + [':'] + "rw" == "ab:c:rw";
    assert "c" + [':'] + "rw" == "c:rw";
    OneLetterTargetFuses("ab", "c", "rw");
  }

  /** A leading colon before a one-letter target: group 1 is empty and
      group 2 swallows the rest, so only one part is left and the bind
      names no target at all. */
  lemma LeadingColonSingleLetterTarget()
    ensures SplitVolumeParts(":c:rw") == Success(["c:rw"])
    ensures TargetOf(":c:rw") == None
  {
    var s := "" + [':'] + "c" + [':'] + "rw";
    assert s == ":c:rw";
    assert "c" + [':'] + "rw" == "c:rw";
    DirectTargetLetter("", "c", "rw");
    SplitIsDirect(s);
    NonEmptyOfThree("", "c:rw", "");
    assert [] + ["c:rw"] + [] == ["c:rw"];
  }

  /** Only a word character makes a drive prefix: a one-character source
      such as `/` is an ordinary path. */
  lemma NonWordLetterIsPath()
    ensures SplitVolumeParts("/:bc:ro") == Success(["/", "bc", "ro"])
    ensures TargetOf("/:bc:ro") == Some("bc")
  {
    assert "/" + [':'] + "bc" + [':'] + "ro" == "/:bc:ro";
    TripleRoundTrip("/", "bc", "ro");
  }

  /** Drive letters on both sides are kept inside their paths. */
  lemma DriveLettersBothSides()
    ensures SplitVolumeParts("C:\\x:C:\\y") == Success(["C:\\x", "C:\\y"])
    ensures TargetOf("C:\\x:C:\\y") == Some("C:\\y")
  {
    var x, y := Drive('C', "\\x"), Drive('C', "\\y");
    assert x == "C:\\x" && y == "C:\\y";
    assert x + [':'] + y == "C:\\x:C:\\y";
    DrivePairRoundTrip('C', "\\x", 'C', "\\y");
    assert TargetOf(x + [':'] + y) == Some(y);
  }

  /** A leading colon leaves group 1 empty; once it is filtered out the
      mode letters move into second place and become the target. */
  lemma LeadingColonShiftsParts()
    ensures SplitVolumeParts(":ab:rw") == Success(["ab", "rw"])
    ensures TargetOf(":ab:rw") == Some("rw")
  {
    assert [':'] + "ab" + [':'] + "rw" == ":ab:rw";
    LeadingColonShifts("ab", "rw");
  }

  /** Without a colon the fallback split yields the whole input as the one
      part, which names no target. */
  lemma NoSeparatorDropped()
    ensures SplitVolumeParts("noseparator") == Success(["noseparator"])
    ensures TargetOf("noseparator") == None
  {
    assert forall k :: 0 <= k < |"noseparator"| ==> "noseparator"[k] != ':';
  }

  /** Duplicate targets collapse, drive letters stay in their paths, a
      one-letter source takes the mode as target and a spec without a colon
      is skipped without affecting the rest. */
  lemma ToVolExample()
    ensures ToVol(["a:b", "a:b:ro", "C:\\x:C:\\y", "noseparator", "a:b"]) == {"b", "ro", "C:\\y"}
  {
    var p0, p1, p2, p3 := "a:b", "a:b:ro", "C:\\x:C:\\y", "noseparator";
    PlainPair();
    SingleLetterSourceIsDrive();
    DriveLettersBothSides();
    NoSeparatorDropped();
    CollectFive(p0, p1, p2, p3, p0, "b", "ro", "C:\\y", TargetOf);
  }

  /** Five specifications of which the fourth names no target and the last
      repeats the first. */
  lemma CollectFive(p0: string, p1: string, p2: string, p3: string, p4: string,
             t0: string, t1: string, t2: string, target: string -> Option<string>)
    requires target(p0) == Some(t0) && target(p1) == Some(t1) && target(p2) == Some(t2)
    requires target(p3) == None && target(p4) == Some(t0)
    ensures Collect([p0, p1, p2, p3, p4], target) == {t0, t1, t2}
  {
    var paths := [p0, p1, p2, p3, p4];
    forall t | t in Collect(paths, target)
      ensures t in {t0, t1, t2}
    {
      var i :| 0 <= i < |paths| && target(paths[i]) == Some(t);
    }
    assert target(paths[0]) == Some(t0);
    assert target(paths[1]) == Some(t1);
    assert target(paths[2]) == Some(t2);
  }
}

=== FILE: volume_spec.dfy ===
/** Parsing of bind-mount specifications (`source:target[:mode]`) into their
    parts, and the set of target names a list of specifications mounts.

    The parser matches the pattern

        ^((?:[\w]\:)?[^\:]*)\:((?:[\w]\:)?[^\:]*)(?:\:([rwom]*))?

    with leftmost-first (backtracking) priority: a greedy `?` tries to take
    its operand before skipping it, a greedy `*` tries its longest run first
    and gives characters back one at a time. `Match` is that search written
    out for this one pattern; `Direct` says in closed form where each group
    ends, and `MatchIsDirect` proves the two agree. */
module VolumeSpec {
  import opened Wrappers

  // ---------------------------------------------------------------------
  // Character classes

  /** `\w`: ASCII letters, digits and underscore. */
  predicate IsWord(c: char) {
    ('0' <= c <= '9') || ('A' <= c <= 'Z') || ('a' <= c <= 'z') || c == '_'
  }

  /** `[rwom]` */
  predicate IsMode(c: char) {
    c == 'r' || c == 'w' || c == 'o' || c == 'm'
  }

  /** `[^\:]`: the characters other than the separator `strings.Split`
      cuts at. */
  predicate NotColon(c: char) {
    Other(':')(c)
  }

  /** The furthest a greedy run of `P`-characters can reach from `i`. */
  function RunEnd(s: string, i: nat, P: char -> bool): (j: nat)
    requires i <= |s|
    ensures i <= j <= |s|
    ensures forall k :: i <= k < j ==> P(s[k])
    ensures j < |s| ==> !P(s[j])
    decreases |s| - i
  {
    if i < |s| && P(s[i]) then RunEnd(s, i + 1, P) else i
  }

  /** A run is pinned down by where it stops. */
  lemma {:induction false} RunEndAt(s: string, i: nat, j: nat, P: char -> bool)
    requires i <= j <= |s|
    requires forall k :: i <= k < j ==> P(s[k])
    requires j < |s| ==> !P(s[j])
    ensures RunEnd(s, i, P) == j
    decreases j - i
  {
    if i < j {
      RunEndAt(s, i + 1, j, P);
    }
  }

  /** The pieces of `p`, a character, then `q`. */
  lemma Around(p: string, c: char, q: string)
    ensures var s := p + [c] + q;
            |s| == |p| + 1 + |q| && s[|p|] == c && s[..|p|] == p && s[|p| + 1..] == q
  {
  }

  /** A prefix cut at `c` and glued back together. */
  lemma Rejoin(s: string, c: nat, e: nat)
    requires c < e <= |s|
    ensures s[..c] + [s[c]] + s[c + 1..e] == s[..e]
  {
  }

  // ---------------------------------------------------------------------
  // Backtracking combinators

  /** A greedy `*` whose run may stop anywhere in `[lo, hi]`: the stops are
      tried longest first, and the first from which the rest of the pattern
      (the continuation `k`) matches wins. */
  function Greedy<T>(lo: nat, hi: nat, k: nat -> Option<T>): Option<T>
    requires lo <= hi
    decreases hi - lo
  {
    if k(hi).Some? then k(hi)
    else if hi == lo then None
    else Greedy(lo, hi - 1, k)
  }

  /** A greedy `?`: the branch that takes the operand has priority. */
  function OrElse<T>(first: Option<T>, second: Option<T>): Option<T> {
    if first.Some? then first else second
  }

  // ---------------------------------------------------------------------
  // The matcher

  /** The capture groups of a match; a group that took no part reads as "". */
  datatype Groups = Groups(source: string, target: string, mode: string)

  /** `(?:[\w]\:)` matches at `i`. */
  predicate DriveAt(s: string, i: nat) {
    i + 1 < |s| && IsWord(s[i]) && s[i + 1] == ':'
  }

  /** Group 3's optional `(?:\:([rwom]*))?` at `i`. Nothing follows it in the
      pattern, so its continuation always succeeds. */
  function ModeFrom(s: string, i: nat): Option<string>
    requires i <= |s|
  {
    var taken :=
      if i < |s| && s[i] == ':' then
        Greedy(i + 1, RunEnd(s, i + 1, IsMode),
               j => if i + 1 <= j <= |s| then Some(s[i + 1..j]) else None)
      else None;
    OrElse(taken, Some(""))
  }

  /** Continuation of group 2's `[^\:]*` when it stops at `j`, the group
      having begun at `start`: group 3, then the end of the pattern. */
  function TargetStop(s: string, start: nat, j: nat): Option<(string, string)> {
    if start <= j <= |s| then
      match ModeFrom(s, j)
      case Some(m) => Some((s[start..j], m))
      case None => None
    else None
  }

  /** Group 2's `[^\:]*` from `from`, the group having begun at `start`. */
  function TargetRun(s: string, start: nat, from: nat): Option<(string, string)>
    requires start <= from <= |s|
  {
    Greedy(from, RunEnd(s, from, NotColon), j => TargetStop(s, start, j))
  }

  /** Group 2, `((?:[\w]\:)?[^\:]*)`, and what follows it, from `i`. */
  function TargetFrom(s: string, i: nat): Option<(string, string)>
    requires i <= |s|
  {
    OrElse(if DriveAt(s, i) then TargetRun(s, i, i + 2) else None,
           TargetRun(s, i, i))
  }

  /** Continuation of group 1's `[^\:]*` when it stops at `j`: the
      separator `\:`, then group 2 onwards. */
  function SourceStop(s: string, j: nat): Option<Groups> {
    if j < |s| && s[j] == ':' then
      match TargetFrom(s, j + 1)
      case Some(t) => Some(Groups(s[..j], t.0, t.1))
      case None => None
    else None
  }

  /** `SourceStop` as the continuation handed to `Greedy`. */
  function SourceCont(s: string): nat -> Option<Groups> {
    (j: nat) => SourceStop(s, j)
  }

  /** Group 1's `[^\:]*` from `from`. */
  function SourceRun(s: string, from: nat): Option<Groups>
    requires from <= |s|
  {
    Greedy(from, RunEnd(s, from, NotColon), SourceCont(s))
  }

  /** The whole pattern, anchored at the start of `s` and not at its end. */
  function Match(s: string): Option<Groups> {
    OrElse(if DriveAt(s, 0) then SourceRun(s, 2) else None, SourceRun(s, 0))
  }

  // ---------------------------------------------------------------------
  // Where the groups end, in closed form

  /** Group 1 ends at the first colon after a drive prefix if there is one,
      and at the first colon otherwise. */
  function SourceEnd(s: string): nat {
    if DriveAt(s, 0) && RunEnd(s, 2, NotColon) < |s| then RunEnd(s, 2, NotColon)
    else RunEnd(s, 0, NotColon)
  }

  /** Group 2, begun at `i`, ends at the first colon after its drive prefix
      (if it has one) or at the end of the input. */
  function TargetEnd(s: string, i: nat): nat
    requires i <= |s|
  {
    RunEnd(s, if DriveAt(s, i) then i + 2 else i, NotColon)
  }

  /** Group 3 read at `i`: the mode letters after a colon there. */
  function ModeAt(s: string, i: nat): string
    requires i <= |s|
  {
    if i < |s| && s[i] == ':' then s[i + 1..RunEnd(s, i + 1, IsMode)] else ""
  }

  function Direct(s: string): Option<Groups> {
    if ':' !in s then None
    else
      var c := SourceEnd(s);
      var e := TargetEnd(s, c + 1);
      Some(Groups(s[..c], s[c + 1..e], ModeAt(s, e)))
  }

  lemma GreedyHit<T>(lo: nat, hi: nat, k: nat -> Option<T>)
    requires lo <= hi
    requires k(hi).Some?
    ensures Greedy(lo, hi, k) == k(hi)
  {
  }

  lemma {:induction false} GreedyMiss<T>(lo: nat, hi: nat, k: nat -> Option<T>)
    requires lo <= hi
    requires forall j :: lo <= j <= hi ==> k(j).None?
    ensures Greedy(lo, hi, k) == None
    decreases hi - lo
  {
    if hi != lo {
      GreedyMiss(lo, hi - 1, k);
    }
  }

  lemma ModeFromIsModeAt(s: string, i: nat)
    requires i <= |s|
    ensures ModeFrom(s, i) == Some(ModeAt(s, i))
  {
    if i < |s| && s[i] == ':' {
      var k := j => if i + 1 <= j <= |s| then Some(s[i + 1..j]) else None;
      GreedyHit(i + 1, RunEnd(s, i + 1, IsMode), k);
    }
  }

  lemma TargetFromIsDirect(s: string, i: nat)
    requires i <= |s|
    ensures TargetFrom(s, i) == Some((s[i..TargetEnd(s, i)], ModeAt(s, TargetEnd(s, i))))
  {
    var from := if DriveAt(s, i) then i + 2 else i;
    var e := RunEnd(s, from, NotColon);
    ModeFromIsModeAt(s, e);
    GreedyHit(from, e, j => TargetStop(s, i, j));
  }

  /** Group 1's run from `from` succeeds exactly when a colon follows it. */
  lemma SourceRunIsDirect(s: string, from: nat)
    requires from <= |s|
    ensures var e := RunEnd(s, from, NotColon);
            SourceRun(s, from) ==
              if e < |s| then
                Some(Groups(s[..e], s[e + 1..TargetEnd(s, e + 1)], ModeAt(s, TargetEnd(s, e + 1))))
              else None
  {
    if RunEnd(s, from, NotColon) < |s| {
      SourceRunHit(s, from);
    } else {
      SourceRunMiss(s, from);
    }
  }

  lemma SourceRunHit(s: string, from: nat)
    requires from <= |s| && RunEnd(s, from, NotColon) < |s|
    ensures var e := RunEnd(s, from, NotColon);
            SourceRun(s, from) ==
              Some(Groups(s[..e], s[e + 1..TargetEnd(s, e + 1)], ModeAt(s, TargetEnd(s, e + 1))))
  {
    var e := RunEnd(s, from, NotColon);
    var k := SourceCont(s);
    TargetFromIsDirect(s, e + 1);
    GreedyHit(from, e, k);
  }

  lemma SourceRunMiss(s: string, from: nat)
    requires from <= |s| && RunEnd(s, from, NotColon) == |s|
    ensures SourceRun(s, from) == None
  {
    var e := RunEnd(s, from, NotColon);
    var k := SourceCont(s);
    forall j | from <= j <= e
      ensures k(j).None?
    {
      assert j == |s| || s[j] != ':';
    }
    GreedyMiss(from, e, k);
  }

  /** A colon somewhere in `s` stops every run of non-colons before it. */
  lemma RunStopsAtColon(s: string, from: nat)
    requires from <= |s| && ':' in s[from..]
    ensures RunEnd(s, from, NotColon) < |s|
  {
    var k :| 0 <= k < |s[from..]| && s[from..][k] == ':';
    assert s[from + k] == ':';
  }

  /** The backtracking search and the closed form agree on every input. */
  lemma MatchIsDirect(s: string)
    ensures Match(s) == Direct(s)
  {
    if ':' in s {
      MatchWithColon(s);
    } else {
      MatchWithoutColon(s);
    }
  }

  lemma MatchWithColon(s: string)
    requires ':' in s
    ensures Match(s) == Direct(s)
  {
    assert RunEnd(s, 0, NotColon) < |s| by {
      assert s[0..] == s;
      RunStopsAtColon(s, 0);
    }
    SourceRunIsDirect(s, 0);
    if DriveAt(s, 0) {
      SourceRunIsDirect(s, 2);
    }
  }

  lemma MatchWithoutColon(s: string)
    requires ':' !in s
    ensures Match(s) == None
  {
    forall k | 0 <= k < |s| ensures NotColon(s[k]) {
      assert s[k] in s;
    }
    RunEndAt(s, 0, |s|, NotColon);
    SourceRunMiss(s, 0);
  }

  /** Group 1 of the closed form stops at a colon and holds none of its
      own except after a drive letter. */
  lemma SourceEndShape(s: string)
    requires ':' in s
    ensures SourceEnd(s) < |s| && s[SourceEnd(s)] == ':'
    ensures DriveOnlyColon(s[..SourceEnd(s)])
  {
    var c := SourceEnd(s);
    if DriveAt(s, 0) && RunEnd(s, 2, NotColon) < |s| {
      assert forall k :: 2 <= k < c ==> s[..c][k] == s[k];
    } else {
      var k :| 0 <= k < |s| && s[k] == ':';
      assert forall k :: 0 <= k < c ==> s[..c][k] == s[k];
    }
  }

  lemma TargetEndShape(s: string, i: nat)
    requires i <= |s|
    ensures i <= TargetEnd(s, i) <= |s|
    ensures TargetEnd(s, i) < |s| ==> s[TargetEnd(s, i)] == ':'
    ensures DriveOnlyColon(s[i..TargetEnd(s, i)])
  {
    var e := TargetEnd(s, i);
    assert forall k :: 0 <= k < e - i ==> s[i..e][k] == s[i + k];
  }

  lemma ModeAtShape(s: string, i: nat)
    requires i <= |s|
    ensures forall k :: 0 <= k < |ModeAt(s, i)| ==> IsMode(ModeAt(s, i)[k])
    ensures ModeAt(s, i) != "" ==> i < |s| && s[i] == ':' && s[i + 1..i + 1 + |ModeAt(s, i)|] == ModeAt(s, i)
  {
  }

  /** The layout every match has: group 1 and group 2 hold a colon at most
      as the second character of a drive prefix, group 3 holds mode letters
      only, and the groups written out with their separators are a prefix of
      the input (the rest of the input is ignored). */
  predicate WellShaped(s: string, g: Groups) {
    && DriveOnlyColon(g.source) && DriveOnlyColon(g.target)
    && (forall k :: 0 <= k < |g.mode| ==> IsMode(g.mode[k]))
    && g.source + [':'] + g.target <= s
    && (g.mode != "" ==> g.source + [':'] + g.target + [':'] + g.mode <= s)
  }

  /** Groups 1 and 2 with the colon between them spell out a prefix. */
  lemma TwoPiecesPrefix(s: string, c: nat, e: nat)
    requires c < e <= |s| && s[c] == ':'
    ensures s[..c] + [':'] + s[c + 1..e] <= s
  {
    Rejoin(s, c, e);
  }

  /** So do all three groups when a colon and the mode follow group 2. */
  lemma ThreePiecesPrefix(s: string, c: nat, e: nat, mode: string)
    requires c < e < |s| && s[c] == ':' && s[e] == ':'
    requires e + 1 + |mode| <= |s| && s[e + 1..e + 1 + |mode|] == mode
    ensures s[..c] + [':'] + s[c + 1..e] + [':'] + mode <= s
  {
    Rejoin(s, c, e);
    Rejoin(s, e, e + 1 + |mode|);
  }

  /** Groups cut out of `s` at a colon `c` and an end `e`, followed by a
      colon and the mode letters when there is a mode, are well shaped. */
  lemma CutShape(s: string, c: nat, e: nat, mode: string)
    requires c < e <= |s| && s[c] == ':'
    requires DriveOnlyColon(s[..c]) && DriveOnlyColon(s[c + 1..e])
    requires forall k :: 0 <= k < |mode| ==> IsMode(mode[k])
    requires mode != "" ==> e < |s| && s[e] == ':' && e + 1 + |mode| <= |s| && s[e + 1..e + 1 + |mode|] == mode
    ensures WellShaped(s, Groups(s[..c], s[c + 1..e], mode))
  {
    TwoPiecesPrefix(s, c, e);
    if mode != "" {
      ThreePiecesPrefix(s, c, e, mode);
    }
  }

  lemma DirectShape(s: string)
    requires ':' in s
    ensures WellShaped(s, Direct(s).value)
  {
    var c := SourceEnd(s);
    SourceEndShape(s);
    var e := TargetEnd(s, c + 1);
    TargetEndShape(s, c + 1);
    ModeAtShape(s, e);
    assert Direct(s).value == Groups(s[..c], s[c + 1..e], ModeAt(s, e));
    CutShape(s, c, e, ModeAt(s, e));
  }

  /** Every match the pattern finds is well shaped. */
  lemma MatchShape(s: string)
    requires Match(s).Some?
    ensures WellShaped(s, Match(s).value)
  {
    MatchIsDirect(s);
    DirectShape(s);
  }

  /** A colon occurs in `p` at most as the second character after a `\w`. */
  predicate DriveOnlyColon(p: string) {
    forall k :: 0 <= k < |p| && p[k] == ':' ==> k == 1 && IsWord(p[0])
  }

  /** The drive prefix is preferred whenever a match can use it: if the input
      opens with `\w:` and has another colon later, group 1 keeps the prefix. */
  lemma DriveKeptInSource(s: string)
    requires DriveAt(s, 0) && ':' in s[2..]
    ensures Match(s).Some?
    ensures |Match(s).value.source| >= 2 && Match(s).value.source[..2] == s[..2]
  {
    MatchIsDirect(s);
    var k :| 0 <= k < |s[2..]| && s[2..][k] == ':';
    assert s[k + 2] == ':';
    assert RunEnd(s, 2, NotColon) < |s|;
  }

  /** A leading colon leaves group 1 empty. */
  lemma LeadingColonEmptySource(s: string)
    requires |s| > 0 && s[0] == ':'
    ensures Match(s).Some? && Match(s).value.source == ""
  {
    MatchIsDirect(s);
    assert s[0] in s;
  }

  // ---------------------------------------------------------------------
  // strings.Split

  /** The parts joined back with `sep` between them. */
  function Join(parts: seq<string>, sep: char): string
    decreases |parts|
  {
    if |parts| == 0 then ""
    else if |parts| == 1 then parts[0]
    else parts[0] + [sep] + Join(parts[1..], sep)
  }

  /** The class of characters other than `sep`. */
  function Other(sep: char): char -> bool {
    (c: char) => c != sep
  }

  /** Cuts `s` at every occurrence of `sep`; an input without `sep` is its
      own single part, so there is always at least one. */
  function Split(s: string, sep: char): (parts: seq<string>)
    ensures |parts| >= 1
    ensures forall i :: 0 <= i < |parts| ==> sep !in parts[i]
    ensures Join(parts, sep) == s
    ensures sep !in s ==> parts == [s]
    decreases |s|
  {
    var i := RunEnd(s, 0, Other(sep));
    if i == |s| then [s]
    else
      assert s[i] in s;
      [s[..i]] + Split(s[i + 1..], sep)
  }

  /** The first part of `p`, `sep`, `rest` ends where `sep` is. */
  lemma FirstPartEnd(p: string, sep: char, rest: string)
    requires sep !in p
    ensures RunEnd(p + [sep] + rest, 0, Other(sep)) == |p|
  {
    var s := p + [sep] + rest;
    forall k | 0 <= k < |p| ensures Other(sep)(s[k]) {
      assert s[k] == p[k];
    }
    RunEndAt(s, 0, |p|, Other(sep));
  }

  /** Splitting undoes joining for parts free of the separator. */
  lemma {:induction false} SplitJoin(parts: seq<string>, sep: char)
    requires |parts| >= 1
    requires forall i :: 0 <= i < |parts| ==> sep !in parts[i]
    ensures Split(Join(parts, sep), sep) == parts
    decreases |parts|
  {
    var s := Join(parts, sep);
    if |parts| > 1 {
      SplitJoin(parts[1..], sep);
      var i := RunEnd(s, 0, Other(sep));
      var p := parts[0];
      var rest := Join(parts[1..], sep);
      assert s == p + [sep] + rest;
      Around(p, sep, rest);
      FirstPartEnd(p, sep, rest);
      assert Split(s, sep) == [s[..i]] + Split(s[i + 1..], sep);
    }
  }

  // ---------------------------------------------------------------------
  // splitVolumeParts and toVol

  /** The strings of `groups` that are not empty, in order. */
  function NonEmpty(groups: seq<string>): (parts: seq<string>)
    ensures |parts| <= |groups|
    ensures forall i :: 0 <= i < |parts| ==> parts[i] != "" && parts[i] in groups
    decreases |groups|
  {
    if groups == [] then []
    else if groups[0] == "" then NonEmpty(groups[1..])
    else [groups[0]] + NonEmpty(groups[1..])
  }

  lemma NonEmptyOfThree(a: string, b: string, c: string)
    ensures NonEmpty([a, b, c]) == (if a == "" then [] else [a]) + (if b == "" then [] else [b])
                                   + (if c == "" then [] else [c])
  {
    assert [a, b, c][1..] == [b, c];
    assert [b, c][1..] == [c];
    assert [c][1..] == [];
    var last := NonEmpty([c]);
    assert last == if c == "" then [] else [c];
    var two := NonEmpty([b, c]);
    assert two == (if b == "" then [] else [b]) + last;
    assert NonEmpty([a, b, c]) == (if a == "" then [] else [a]) + two;
  }

  /** Splits one bind specification into its parts. The pattern is a
      constant that compiles, so the result is never a failure. */
  function SplitVolumeParts(spec: string): (r: Result<seq<string>, string>)
    ensures r.Success?
    ensures ':' !in spec ==> r.value == [spec]
    ensures ':' in spec ==> |r.value| <= 3
    ensures ':' in spec ==> forall i :: 0 <= i < |r.value| ==> r.value[i] != ""
    ensures forall i :: 0 <= i < |r.value| ==> DriveOnlyColon(r.value[i])
  {
    MatchIsDirect(spec);
    match Match(spec)
    case Some(g) =>
      MatchShape(spec);
      Success(NonEmpty([g.source, g.target, g.mode]))
    case None => Success(Split(spec, ':'))
  }

  /** On an input with a colon the parts are the non-empty closed-form
      groups. */
  lemma SplitIsDirect(s: string)
    requires ':' in s
    ensures var g := Direct(s).value;
            SplitVolumeParts(s) == Success(NonEmpty([g.source, g.target, g.mode]))
  {
    MatchIsDirect(s);
  }

  /** Group 1 ends at the first colon, unless that colon follows a single
      word character and another colon comes later. */
  lemma SourceEndAt(s: string, n: nat)
    requires n < |s| && s[n] == ':' && ':' !in s[..n]
    requires n == 1 && IsWord(s[0]) ==> ':' !in s[2..]
    ensures SourceEnd(s) == n
  {
    forall k | 0 <= k < n ensures NotColon(s[k]) {
      assert s[..n][k] == s[k];
    }
    RunEndAt(s, 0, n, NotColon);
    if n == 1 && IsWord(s[0]) {
      forall k | 2 <= k < |s| ensures NotColon(s[k]) {
        assert s[2..][k - 2] == s[k];
      }
      RunEndAt(s, 2, |s|, NotColon);
    } else if n > 1 {
      assert s[..n][1] == s[1];
    }
  }

  /** Group 2 begun at `i` ends at the next colon (or the end), unless the
      group opens with a drive prefix. */
  lemma TargetEndAt(s: string, i: nat, m: nat)
    requires i <= m <= |s| && (m < |s| ==> s[m] == ':') && ':' !in s[i..m]
    requires !DriveAt(s, i)
    ensures TargetEnd(s, i) == m
  {
    forall k | i <= k < m ensures NotColon(s[k]) {
      assert s[i..m][k - i] == s[k];
    }
    RunEndAt(s, i, m, NotColon);
  }

  /** After a colon at `m`, group 3 takes the mode letters up to `j`. */
  lemma ModeAtIs(s: string, m: nat, j: nat)
    requires m < j <= |s| && s[m] == ':'
    requires forall k :: m < k < j ==> IsMode(s[k])
    requires j < |s| ==> !IsMode(s[j])
    ensures ModeAt(s, m) == s[m + 1..j]
  {
    RunEndAt(s, m + 1, j, IsMode);
  }

  lemma DirectPair(source: string, target: string)
    requires ':' !in source && ':' !in target && target != ""
    ensures ':' in source + [':'] + target
    ensures Direct(source + [':'] + target) == Some(Groups(source, target, ""))
  {
    var s := source + [':'] + target;
    var n := |source|;
    Around(source, ':', target);
    assert s[n] in s;
    assert SourceEnd(s) == n by {
      SourceEndAt(s, n);
    }
    assert TargetEnd(s, n + 1) == |s| by {
      assert n + 2 < |s| ==> s[n + 2] == target[1] && target[1] in target;
      TargetEndAt(s, n + 1, |s|);
    }
    assert ModeAt(s, |s|) == "";
    assert s[n + 1..|s|] == target;
  }

  /** `source:target` parses back into its two paths when neither holds a
      colon. */
  lemma PairRoundTrip(source: string, target: string)
    requires source != "" && target != ""
    requires ':' !in source && ':' !in target
    ensures SplitVolumeParts(source + [':'] + target) == Success([source, target])
  {
    var s := source + [':'] + target;
    DirectPair(source, target);
    SplitIsDirect(s);
    var g := Direct(s).value;
    assert [g.source, g.target, g.mode] == [source, target, ""];
    NonEmptyOfThree(source, target, "");
    assert [source] + [target] + [] == [source, target];
  }

  /** A path of one `\w` character, which the pattern can take for a drive
      letter. */
  predicate OneLetter(p: string) {
    |p| == 1 && IsWord(p[0])
  }

  /** Where the pieces of `p:q:r` sit. */
  lemma Layout(p: string, q: string, r: string)
    ensures var s := p + [':'] + q + [':'] + r;
            var m := |p| + 1 + |q|;
            && |s| == m + 1 + |r|
            && s[..|p|] == p && s[|p|] == ':' && s[|p| + 1..m] == q && s[m] == ':' && s[m + 1..] == r
  {
    var s := p + [':'] + q + [':'] + r;
    var m := |p| + 1 + |q|;
    Around(p + [':'] + q, ':', r);
    Around(p, ':', q);
    assert s[..m] == p + [':'] + q;
    assert s[..|p|] == s[..m][..|p|];
    assert s[|p| + 1..m] == s[..m][|p| + 1..];
  }

  /** In `p:q:r`, group 1 is `p` when `p` cannot be read as a drive. */
  lemma TripleSourceEnd(p: string, q: string, r: string)
    requires ':' !in p && !OneLetter(p)
    ensures SourceEnd(p + [':'] + q + [':'] + r) == |p|
  {
    var s := p + [':'] + q + [':'] + r;
    Layout(p, q, r);
    if |p| > 0 {
      assert s[0] == p[0];
    }
    if |p| > 1 {
      assert s[1] == p[1] && p[1] in p;
    }
    SourceEndAt(s, |p|);
  }

  /** In `p:q:r`, group 2 is `q` when `q` cannot be read as a drive. */
  lemma TripleTargetEnd(p: string, q: string, r: string)
    requires q != "" && ':' !in q && !OneLetter(q)
    ensures TargetEnd(p + [':'] + q + [':'] + r, |p| + 1) == |p| + 1 + |q|
  {
    var s := p + [':'] + q + [':'] + r;
    var n := |p|;
    Layout(p, q, r);
    assert s[n + 1] == q[0];
    if |q| > 1 {
      assert s[n + 2] == q[1] && q[1] in q;
    }
    TargetEndAt(s, n + 1, n + 1 + |q|);
  }

  /** In `p:q:r`, group 3 is `r` when it is all mode letters. */
  lemma TripleMode(p: string, q: string, r: string)
    requires r != "" && forall k :: 0 <= k < |r| ==> IsMode(r[k])
    ensures ModeAt(p + [':'] + q + [':'] + r, |p| + 1 + |q|) == r
  {
    var s := p + [':'] + q + [':'] + r;
    var m := |p| + 1 + |q|;
    Layout(p, q, r);
    forall k | m < k < |s| ensures IsMode(s[k]) {
      assert s[k] == s[m + 1..][k - m - 1];
    }
    ModeAtIs(s, m, |s|);
  }

  lemma DirectTriple(source: string, target: string, mode: string)
    requires target != "" && mode != ""
    requires ':' !in source && ':' !in target
    requires forall k :: 0 <= k < |mode| ==> IsMode(mode[k])
    requires !OneLetter(source) && !OneLetter(target)
    ensures ':' in source + [':'] + target + [':'] + mode
    ensures Direct(source + [':'] + target + [':'] + mode) == Some(Groups(source, target, mode))
  {
    var s := source + [':'] + target + [':'] + mode;
    Layout(source, target, mode);
    assert s[|source|] in s;
    TripleSourceEnd(source, target, mode);
    TripleTargetEnd(source, target, mode);
    TripleMode(source, target, mode);
  }

  /** `source:target:mode` parses back into its three parts unless one of
      the paths is a single `\w` character. */
  lemma TripleRoundTrip(source: string, target: string, mode: string)
    requires source != "" && target != "" && mode != ""
    requires ':' !in source && ':' !in target
    requires forall k :: 0 <= k < |mode| ==> IsMode(mode[k])
    requires !OneLetter(source) && !OneLetter(target)
    ensures SplitVolumeParts(source + [':'] + target + [':'] + mode) == Success([source, target, mode])
  {
    var s := source + [':'] + target + [':'] + mode;
    DirectTriple(source, target, mode);
    SplitIsDirect(s);
    var g := Direct(s).value;
    assert [g.source, g.target, g.mode] == [source, target, mode];
    NonEmptyOfThree(source, target, mode);
    assert [source] + [target] + [mode] == [source, target, mode];
  }

  /** In `p:q:r` with a one-letter `p`, group 1 takes `p:q` as a drive
      path. */
  lemma DriveSourceEnd(p: string, q: string, r: string)
    requires OneLetter(p) && ':' !in q
    ensures SourceEnd(p + [':'] + q + [':'] + r) == 2 + |q|
  {
    var s := p + [':'] + q + [':'] + r;
    var m := 2 + |q|;
    Layout(p, q, r);
    assert DriveAt(s, 0);
    forall k | 2 <= k < m ensures NotColon(s[k]) {
      assert s[k] == s[2..m][k - 2];
    }
    RunEndAt(s, 2, m, NotColon);
  }

  /** In `p:q:r` with a colon-free `r`, group 2 begun after the second
      colon runs to the end. */
  lemma TailTargetEnd(p: string, q: string, r: string)
    requires ':' !in r
    ensures TargetEnd(p + [':'] + q + [':'] + r, |p| + 2 + |q|) == |p| + 2 + |q| + |r|
  {
    var s := p + [':'] + q + [':'] + r;
    var m := |p| + 1 + |q|;
    Layout(p, q, r);
    if |r| > 1 {
      assert s[m + 2] == r[1] && r[1] in r;
    }
    TargetEndAt(s, m + 1, |s|);
  }

  lemma DirectOneLetter(source: string, target: string, mode: string)
    requires OneLetter(source) && target != "" && mode != ""
    requires ':' !in target
    requires forall k :: 0 <= k < |mode| ==> IsMode(mode[k])
    ensures ':' in source + [':'] + target + [':'] + mode
    ensures Direct(source + [':'] + target + [':'] + mode) == Some(Groups(source + [':'] + target, mode, ""))
  {
    var s := source + [':'] + target + [':'] + mode;
    var m := 2 + |target|;
    Layout(source, target, mode);
    assert s[1] in s;
    DriveSourceEnd(source, target, mode);
    assert ':' !in mode by {
      forall k | 0 <= k < |mode| ensures mode[k] != ':' {
        assert IsMode(mode[k]);
      }
    }
    TailTargetEnd(source, target, mode);
    assert ModeAt(s, |s|) == "";
    assert s[..m] == source + [':'] + target && s[m + 1..|s|] == mode;
  }

  /** With a one-letter source the first colon is swallowed by the drive
      prefix: source and target fuse, and the mode takes second place. */
  lemma OneLetterSourceFuses(source: string, target: string, mode: string)
    requires OneLetter(source) && target != "" && mode != ""
    requires ':' !in target
    requires forall k :: 0 <= k < |mode| ==> IsMode(mode[k])
    ensures SplitVolumeParts(source + [':'] + target + [':'] + mode)
         == Success([source + [':'] + target, mode])
  {
    var s := source + [':'] + target + [':'] + mode;
    DirectOneLetter(source, target, mode);
    SplitIsDirect(s);
    var g := Direct(s).value;
    assert [g.source, g.target, g.mode] == [source + [':'] + target, mode, ""];
    NonEmptyOfThree(source + [':'] + target, mode, "");
    assert [source + [':'] + target] + [mode] + [] == [source + [':'] + target, mode];
  }

  /** In `p:q:r` with a one-letter `q` and a colon-free `r`, group 2 takes
      `q:` as a drive prefix and runs to the end of the input. */
  lemma DriveTargetEnd(p: string, q: string, r: string)
    requires OneLetter(q) && ':' !in r
    ensures TargetEnd(p + [':'] + q + [':'] + r, |p| + 1) == |p| + 3 + |r|
  {
    var s := p + [':'] + q + [':'] + r;
    var m := |p| + 2;
    Layout(p, q, r);
    assert s[|p| + 1] == q[0];
    assert DriveAt(s, |p| + 1);
    forall k | m + 1 <= k < |s| ensures NotColon(s[k]) {
      assert s[k] == s[m + 1..][k - m - 1];
      assert s[k] in r;
    }
    RunEndAt(s, m + 1, |s|, NotColon);
  }

  /** The closed form read off from where its groups end. */
  lemma DirectFromEnds(s: string, n: nat, e: nat)
    requires n < |s| && s[n] == ':' && SourceEnd(s) == n
    requires n + 1 <= e <= |s| && TargetEnd(s, n + 1) == e
    ensures Direct(s) == Some(Groups(s[..n], s[n + 1..e], ModeAt(s, e)))
  {
    assert s[n] in s;
  }

  /** Where the groups of `source:t:rest` end when `t` is one word character. */
  lemma TargetLetterEnds(source: string, target: string, rest: string)
    requires ':' !in source && !OneLetter(source)
    requires OneLetter(target) && ':' !in rest
    ensures var s := source + [':'] + target + [':'] + rest;
            var n := |source|;
            && n < |s| && s[n] == ':' && SourceEnd(s) == n && TargetEnd(s, n + 1) == |s|
            && s[..n] == source && s[n + 1..|s|] == target + [':'] + rest
  {
    var s := source + [':'] + target + [':'] + rest;
    var t := target + [':'] + rest;
    assert s == source + [':'] + t;
    Around(source, ':', t);
    TripleSourceEnd(source, target, rest);
    DriveTargetEnd(source, target, rest);
  }

  lemma DirectTargetLetter(source: string, target: string, rest: string)
    requires ':' !in source && !OneLetter(source)
    requires OneLetter(target) && ':' !in rest
    ensures ':' in source + [':'] + target + [':'] + rest
    ensures Direct(source + [':'] + target + [':'] + rest) == Some(Groups(source, target + [':'] + rest, ""))
  {
    var s := source + [':'] + target + [':'] + rest;
    TargetLetterEnds(source, target, rest);
    assert s[|source|] in s;
    DirectFromEnds(s, |source|, |s|);
  }

  /** The mirror case: with a one-letter target the second colon is
      swallowed by group 2's drive prefix, so target and mode fuse into the
      second part and the input names `target:rest` as its mount target. */
  lemma OneLetterTargetFuses(source: string, target: string, rest: string)
    requires source != "" && ':' !in source && !OneLetter(source)
    requires OneLetter(target) && ':' !in rest
    ensures SplitVolumeParts(source + [':'] + target + [':'] + rest)
         == Success([source, target + [':'] + rest])
  {
    var s := source + [':'] + target + [':'] + rest;
    DirectTargetLetter(source, target, rest);
    SplitIsDirect(s);
    var g := Direct(s).value;
    assert [g.source, g.target, g.mode] == [source, target + [':'] + rest, ""];
    NonEmptyOfThree(source, target + [':'] + rest, "");
    assert [source] + [target + [':'] + rest] + [] == [source, target + [':'] + rest];
  }

  /** A path with a drive prefix: a word character, a colon, then a path
      without colons. */
  function Drive(letter: char, path: string): string {
    [letter, ':'] + path
  }

  lemma DirectDrivePair(a: char, p: string, b: char, q: string)
    requires IsWord(a) && IsWord(b) && ':' !in p && ':' !in q
    ensures ':' in Drive(a, p) + [':'] + Drive(b, q)
    ensures Direct(Drive(a, p) + [':'] + Drive(b, q)) == Some(Groups(Drive(a, p), Drive(b, q), ""))
  {
    var s := Drive(a, p) + [':'] + Drive(b, q);
    var c := 2 + |p|;
    assert s[1] == ':' && s[1] in s;
    assert SourceEnd(s) == c by {
      assert DriveAt(s, 0) && s[c] == ':';
      forall k | 2 <= k < c ensures NotColon(s[k]) {
        assert s[k] == p[k - 2];
      }
      RunEndAt(s, 2, c, NotColon);
    }
    assert TargetEnd(s, c + 1) == |s| by {
      assert DriveAt(s, c + 1);
      forall k | c + 3 <= k < |s| ensures NotColon(s[k]) {
        assert s[k] == q[k - c - 3];
      }
      RunEndAt(s, c + 3, |s|, NotColon);
    }
    assert ModeAt(s, |s|) == "";
    assert s[..c] == Drive(a, p) && s[c + 1..|s|] == Drive(b, q);
  }

  /** Drive letters on both sides stay inside their paths. */
  lemma DrivePairRoundTrip(a: char, p: string, b: char, q: string)
    requires IsWord(a) && IsWord(b) && ':' !in p && ':' !in q
    ensures SplitVolumeParts(Drive(a, p) + [':'] + Drive(b, q)) == Success([Drive(a, p), Drive(b, q)])
  {
    var s := Drive(a, p) + [':'] + Drive(b, q);
    DirectDrivePair(a, p, b, q);
    SplitIsDirect(s);
    NonEmptyOfThree(Drive(a, p), Drive(b, q), "");
    assert [Drive(a, p)] + [Drive(b, q)] + [] == [Drive(a, p), Drive(b, q)];
  }

  lemma DirectLeadingColon(target: string, mode: string)
    requires target != "" && mode != "" && ':' !in target && !OneLetter(target)
    requires forall k :: 0 <= k < |mode| ==> IsMode(mode[k])
    ensures ':' in [':'] + target + [':'] + mode
    ensures Direct([':'] + target + [':'] + mode) == Some(Groups("", target, mode))
  {
    assert [':'] + target + [':'] + mode == "" + [':'] + target + [':'] + mode;
    DirectTriple("", target, mode);
  }

  /** A leading colon leaves the source empty; once it is dropped the
      target comes first and the mode takes its place as second part. */
  lemma LeadingColonShifts(target: string, mode: string)
    requires target != "" && mode != "" && ':' !in target && !OneLetter(target)
    requires forall k :: 0 <= k < |mode| ==> IsMode(mode[k])
    ensures SplitVolumeParts([':'] + target + [':'] + mode) == Success([target, mode])
  {
    var s := [':'] + target + [':'] + mode;
    DirectLeadingColon(target, mode);
    SplitIsDirect(s);
    var g := Direct(s).value;
    assert [g.source, g.target, g.mode] == ["", target, mode];
    NonEmptyOfThree("", target, mode);
    assert [] + [target] + [mode] == [target, mode];
  }

  /** The mount target a bind specification names: its second part, when it
      has at least two. */
  function TargetOf(spec: string): (t: Option<string>)
    ensures ':' !in spec ==> t.None?
    ensures t.Some? ==> t.value != "" && DriveOnlyColon(t.value)
  {
    match SplitVolumeParts(spec)
    case Failure(_) => None
    case Success(parts) => if |parts| < 2 then None else Some(parts[1])
  }

  /** The values `target` gives the elements of `paths`, skipping those it
      gives nothing for: the loop of toVol with the per-element step left
      abstract. */
  function Collect(paths: seq<string>, target: string -> Option<string>): (targets: set<string>)
    ensures forall t :: t in targets <==>
                        exists i :: 0 <= i < |paths| && target(paths[i]) == Some(t)
    decreases |paths|
  {
    if paths == [] then {}
    else
      var head := target(paths[0]);
      var rest := Collect(paths[1..], target);
      assert forall i :: 0 < i < |paths| ==> paths[i] == paths[1..][i - 1];
      if head.Some? then {head.value} + rest else rest
  }

  lemma CollectAppend(xs: seq<string>, ys: seq<string>, target: string -> Option<string>)
    ensures Collect(xs + ys, target) == Collect(xs, target) + Collect(ys, target)
  {
    var zs := xs + ys;
    forall t | t in Collect(zs, target)
      ensures t in Collect(xs, target) + Collect(ys, target)
    {
      var i :| 0 <= i < |zs| && target(zs[i]) == Some(t);
      if i >= |xs| {
        assert zs[i] == ys[i - |xs|];
      }
    }
    forall t | t in Collect(xs, target)
      ensures t in Collect(zs, target)
    {
      var i :| 0 <= i < |xs| && target(xs[i]) == Some(t);
      assert zs[i] == xs[i];
    }
    forall t | t in Collect(ys, target)
      ensures t in Collect(zs, target)
    {
      var i :| 0 <= i < |ys| && target(ys[i]) == Some(t);
      assert zs[|xs| + i] == ys[i];
    }
  }

  lemma CollectSameElements(xs: seq<string>, ys: seq<string>, target: string -> Option<string>)
    requires forall p :: p in xs <==> p in ys
    ensures Collect(xs, target) == Collect(ys, target)
  {
    forall t | t in Collect(xs, target)
      ensures t in Collect(ys, target)
    {
      var i :| 0 <= i < |xs| && target(xs[i]) == Some(t);
      assert xs[i] in ys;
      var j :| 0 <= j < |ys| && ys[j] == xs[i];
    }
    forall t | t in Collect(ys, target)
      ensures t in Collect(xs, target)
    {
      var i :| 0 <= i < |ys| && target(ys[i]) == Some(t);
      assert ys[i] in xs;
      var j :| 0 <= j < |xs| && xs[j] == ys[i];
    }
  }

  /** The set of mount targets named by `paths`: a target is in it exactly
      when some specification in `paths` names it. Specifications with fewer
      than two parts add nothing. */
  function ToVol(paths: seq<string>): (targets: set<string>)
    ensures forall t :: t in targets <==>
                        exists i :: 0 <= i < |paths| && TargetOf(paths[i]) == Some(t)
  {
    Collect(paths, TargetOf)
  }

  /** Concatenating lists of specifications unites their target sets. */
  lemma ToVolAppend(xs: seq<string>, ys: seq<string>)
    ensures ToVol(xs + ys) == ToVol(xs) + ToVol(ys)
  {
    CollectAppend(xs, ys, TargetOf);
  }

  /** Only which specifications occur matters, not their order or repeats. */
  lemma ToVolSameElements(xs: seq<string>, ys: seq<string>)
    requires forall p :: p in xs <==> p in ys
    ensures ToVol(xs) == ToVol(ys)
  {
    CollectSameElements(xs, ys, TargetOf);
  }

  /** A one-element list names the target of its element, if any. */
  lemma ToVolSingle(spec: string)
    ensures ToVol([spec]) == if TargetOf(spec).Some? then {TargetOf(spec).value} else {}
  {
  }

  lemma ToVolDuplicated(xs: seq<string>)
    ensures ToVol(xs + xs) == ToVol(xs)
  {
    ToVolSameElements(xs + xs, xs);
  }
}

=== FILE: wrappers.dfy ===
/** Failure-carrying values shared by the model: a Go value that may be nil
    becomes an Option, a Go `(value, error)` pair becomes a Result. */
module Wrappers {

  /** `None` plays the part of Go's nil. */
  datatype Option<+T> = None | Some(value: T)

  /** A `(value, error)` pair of which exactly one half is meaningful. */
  datatype Result<+R, +E> = Success(value: R) | Failure(error: E)
}
